=== FILE: README.md ===
# Vector visualiser: input validation and orbit controls, in Dafny

This project models the two pieces of logic that sit above the 3D rendering
library in a browser-based vector visualiser. The page shows axes, a
resizable cube, and one user-entered vector with its plane projections and
azimuth/elevation arcs.

1. **The application state of `public/main.js`.** The state holds the last
   accepted vector, the cube's dimensions, the "show projections" flag, and
   what the scene shows. The handlers are the vector-update button
   (Cartesian or range/azimuth/elevation mode), clear-vector, the projection
   toggle, axis-label changes and apply-box. Each one rejects bad input and
   keeps the previous state. The model also covers the values `applyVector`
   derives:
   - the clamped arrow head;
   - the clamped arc radius;
   - the three projection end points;
   - the `segments + 1` angle parameters the two arc builders sample.
2. **The interaction state machine of the patched `OrbitControls`
   (`public/vendor/orbitcontrols.js`).** It has four states: idle (`STATE.NONE`),
   rotate, dolly and pan. A configurable button→action table drives the
   transitions. Mouse moves and wheel steps add to per-frame accumulators.
   `update` applies the accumulators to the camera's spherical position
   around the target, clamps azimuth, polar angle and distance, and resets
   the accumulators. `reset` restores the saved view.

Numbers are Dafny `real`s. A JavaScript number that may be NaN or infinite
is `Num = Fin(r) | NonFinite`. A length threshold `hypot(x, y, z) > 1e-9` is
compared as `x² + y² + z² > 1e-18`. `Math.sin`, `Math.cos`, `Math.atan2` and
`Math.sqrt` arrive as a `MathLib` parameter, so every property holds for
whatever values the browser computes. Two exceptions are stated
explicitly, each as a precondition at one point only: a lemma that needs
sin² + cos² = 1 requires `TrigIdentityAt`, and `RangeIsLength` requires
`SqrtAt`, that `Math.sqrt` is exact at the vector's squared length. The
camera position is kept as its spherical offset from the
target. A pan step's world-space displacement is a parameter
`shift: PanShift`, a function of the controller and the mouse delta, because
the library computes it from the current camera.

Modules:
- `Numbers` covers `Num`, `Vec3`, one-sided bounds that may be infinite, and
  the `Math.max(lo, Math.min(hi, v))` clamp.
- `SafeInput` is `safeNumber`.
- `VectorScene` covers `applyVector` and the geometry it derives.
- `VectorApp` holds the main.js handlers.
- `VectorAppProperties` states the properties over runs of UI events.
- `OrbitControls` is the controller.
- `OrbitProperties` states the controller properties over several calls and
  runs of events.
- `AppControls` covers main.js's button table and `resetView`.

Notes on what the code does:
- **Vector warnings.** On a rejected vector input, `showError` writes the
  warning text. The `applyVector` call that follows in main.js then
  overwrites that text with the kept vector's readout, so only the warning
  colour remains (`KeepPrevious`). On the apply-box path the message stays,
  because nothing re-renders there.
- **Unmapped buttons.** Pressing a button that the table does not map leaves
  the controller's state as it was. It does not return to idle.
- **Handled moves.** Every handled move and every wheel step calls `update`
  at once, so the accumulators are at identity between any two events.
- **`resetView` in main.js.** It resets the camera position and the target
  but not the zoom or the interaction state. The controller's own `reset`
  restores the zoom too and ends the interaction.

## Model

| member | source | states |
|---|---|---|
| Numbers.Clamp | public/vendor/orbitcontrols.js:264-271 | `Math.max(lo, Math.min(hi, v))` lies within ordered limits; a value within them is unchanged; a value below the lower limit gives the lower limit; with ordered limits, a value above the upper limit gives the upper limit; crossed limits give the lower limit |
| SafeInput.SafeNumber | public/main.js:410-415 | ok exactly when the value is finite with magnitude at most 1e6; then `value` is the input, otherwise it is the fallback |
| VectorScene.HeadLength | public/main.js:292 | the arrow head length is between 0.2 and 0.6 and equals a fifth of the length for lengths in [1, 3] |
| VectorScene.ArrowFor | public/main.js:287-295 | the arrow ends at the vector; its head is `HeadLength` of the arrow's length, so it is in [0.2, 0.6]; its head width is 0.7 × the head length |
| VectorScene.UpdateProjections | public/main.js:181-209 | with projections on, the three end points are the feet of the vector on z = 0, y = 0 and x = 0; with projections off, nothing is shown |
| VectorScene.SphericalToCartesian | public/main.js:229-234 | range 0 gives the origin, and the point lies in the vertical plane of its azimuth |
| VectorScene.SphericalToCartesianLength | public/main.js:229-234 | where sin² + cos² = 1 at both angles, the point's squared length is range² |
| VectorScene.CartesianToSpherical | public/main.js:222-227 | no contract of its own; `RangeIsLength` states what its range is |
| VectorScene.RangeIsLength | public/main.js:222-227 | where `Math.sqrt` is exact at x² + y² + z², the range is non-negative, its square is the vector's squared length, and it equals the arrow's length |
| VectorScene.AzimuthPoint | public/main.js:243-244 | an azimuth-arc point lies in the horizontal plane, and where sin² + cos² = 1 at its angle it is at distance `R` from the origin |
| VectorScene.ElevationPoint | public/main.js:258-259 | no contract of its own; `ElevationPointInPlane` and `ElevationPointOnSphere` state its properties |
| VectorScene.ElevationPointOnSphere | public/main.js:250-259 | where sin² + cos² = 1 at the azimuth and at the angle, an elevation-arc point is at distance `R` from the origin |
| VectorScene.AzimuthArc | public/main.js:237-247 | `segments + 1` points, all in the horizontal plane, from the point at angle 0 to the point at the azimuth |
| VectorScene.ElevationArc | public/main.js:250-263 | `segments + 1` points, from the point at angle 0 to the point at the elevation |
| VectorScene.ArcRadius | public/main.js:313 | the arc radius is between 0.6 and 0.9 × the axis arrow length (3.15), and equals 0.6 × range for ranges in [1, 5.25] |
| VectorScene.ArcParams | public/main.js:237-245 | `segments + 1` parameters evenly spaced by `end / segments`, starting at 0 and ending at `end` |
| VectorScene.ArcParamsWithinSweep | public/main.js:241-243 | every sampled parameter lies between 0 and the swept angle |
| VectorScene.ElevationPointInPlane | public/main.js:251-259 | each elevation-arc point lies in the vertical plane that contains the bearing and +Y |
| VectorScene.ElevationArcInPlane | public/main.js:250-263 | every point of an elevation arc lies in the vertical plane through the bearing |
| VectorScene.BuildAzimuthArcGeometry | public/main.js:237-247 | the loop yields `segments + 1` points, one per sampled parameter, all in the horizontal plane, from angle 0 to the azimuth |
| VectorScene.BuildElevationArcGeometry | public/main.js:250-263 | the loop yields `segments + 1` points, one per sampled parameter, all in the bearing's vertical plane, from angle 0 to the elevation |
| VectorScene.ArcsFor | public/main.js:312-334 | the angles are the vector's spherical form, and the radius is `ArcRadius` of its range; both arcs have 97 points (96 segments); the azimuth arc lies in the horizontal plane and runs from angle 0 to the vector's azimuth; the elevation arc runs from angle 0 to the vector's elevation along the vector's bearing, every point in that bearing's vertical plane |
| VectorScene.ApplyVector | public/main.js:283-356 | the arrow ends at the vector with head `HeadLength` of its length; projections are shown exactly when enabled, at the three feet; the arcs are `ArcsFor` the vector, so they use its spherical angles, sweep to its azimuth and elevation, and have radius `ArcRadius` of its range; the readout shows the vector in an unchanged colour |
| VectorScene.ClearScene | public/main.js:466-473 | arrow, projections and arcs are hidden, and the readout is blanked with its colour kept |
| VectorApp.ShowError | public/main.js:424-428 | no contract; the readout becomes the message in the warning colour |
| VectorApp.HideError | public/main.js:429-432 | no contract; the warning colour is switched off and the text is left as it is |
| VectorApp.Init | public/main.js:113-123 | the page starts with vector (2, 1, 1.5), a 2×2×2 cube and projections on, and shows that vector |
| VectorApp.KeepPrevious | public/main.js:266-277 | a rejected vector keeps the vector, cube and toggle; the readout shows the kept vector in the warning colour |
| VectorApp.DrawVectorTo | public/main.js:266-281 | the kept vector becomes (x, y, z) exactly when all components are finite and the length exceeds 1e-9; otherwise it is unchanged and the warning colour is on; the scene shows the kept vector |
| VectorApp.AnglesToVector | public/main.js:452-460 | a zero or negative range is clamped to 0 and gives the zero vector |
| VectorApp.UpdateVector | public/main.js:440-464 | a field failing `safeNumber` leaves the vector unchanged with a warning; otherwise Cartesian mode draws (x, y, z) and angle mode draws the converted vector; in angle mode a non-positive range never changes the vector; the cube is never touched |
| VectorApp.ClearVector | public/main.js:466-473 | hides everything the vector drew, blanks the readout, and never changes the kept vector, cube or toggle |
| VectorApp.ToggleProjections | public/main.js:434-438 | records the flag and redraws the kept vector with the readout colour unchanged; off hides all three projections, on shows them at (x,y,0), (x,0,z), (0,y,z); never changes the vector |
| VectorApp.RelabelAxis | public/main.js:391-393 | re-applies the kept vector without changing it |
| VectorApp.ApplyBox | public/main.js:477-499 | a rejected box (any field not ok or ≤ 0) keeps the cube and shows the message; an accepted box gives each side max(0.01, v), so it is ≥ 0.01 and equals v when v ≥ 0.01; the vector is never touched, and on either path the drawn scene changes only in its readout |
| VectorAppProperties.InitInv | public/main.js:116-117 | the initial state satisfies the invariant |
| VectorAppProperties.StepVectorRule | public/main.js:440-464 | an event changes the kept vector exactly when it is a valid proposal longer than 1e-9, and then to that proposal |
| VectorAppProperties.StepCubeRule | public/main.js:477-499 | an event changes the cube exactly when it is an accepted box, and then to its sides floored at 0.01 |
| VectorAppProperties.RunInv | public/main.js:266-281 | after any sequence of UI events the kept vector is longer than 1e-9, each cube side is at least 0.01, and the scene shows the kept vector or nothing |
| VectorAppProperties.RunRejectAndRetain | public/main.js:440-499 | a run with no accepted vector keeps the vector; a run with no accepted box keeps the cube |
| VectorAppProperties.RunEndsWithAccepted | public/main.js:278-280 | after a run ending in an accepted vector, that vector is kept |
| VectorAppProperties.SquareAboveThreshold | public/main.js:272-273 | for r ≥ 0, r² > 1e-18 exactly when r > 1e-9 |
| VectorAppProperties.AnglesVectorLongEnoughIff | public/main.js:456-460 | where the trigonometric identity holds, the converted vector is long enough exactly when the range exceeds 1e-9 |
| VectorAppProperties.AnglesAcceptedIff | public/main.js:452-463 | in angle mode with valid fields, the vector is accepted exactly when the range exceeds 1e-9; otherwise it is kept |
| VectorAppProperties.ToggleProjectionsOffOn | public/main.js:434-438 | with vector (1,1,1), off hides the projections and on shows them at (1,1,0), (1,0,1), (0,1,1) |
| VectorAppProperties.ClearThenToggleRedraws | public/main.js:434-438 | after a clear, toggling projections draws the kept vector again |
| OrbitControls.DefaultConfig | public/vendor/orbitcontrols.js:29-65 | everything is enabled by default; distance may be any r ≥ 0, the polar angle any value in [0, PI], the azimuth anything; speeds are 1 and the zoom factor 0.95; left rotates, middle dollies, right pans |
| OrbitControls.Construct | public/vendor/orbitcontrols.js:25-95 | a new controller holds the camera and configuration it was given, its target is the origin, it is idle with identity accumulators, and it saves the target, position and zoom for reset |
| OrbitControls.RotateLeft | public/vendor/orbitcontrols.js:99 | the azimuth delta decreases by the angle; nothing else changes |
| OrbitControls.RotateUp | public/vendor/orbitcontrols.js:100 | the polar delta decreases by the angle; nothing else changes |
| OrbitControls.DollyIn | public/vendor/orbitcontrols.js:145-153 | perspective: scale becomes scale / s; orthographic: zoom becomes clamp(zoom × s) to [minZoom, maxZoom], and zoomChanged is set; other cameras are unchanged |
| OrbitControls.DollyOut | public/vendor/orbitcontrols.js:155-163 | perspective: scale becomes scale × s; orthographic: zoom becomes clamp(zoom / s), and zoomChanged is set; other cameras are unchanged |
| OrbitControls.PanBy | public/vendor/orbitcontrols.js:125-143 | perspective or orthographic: the pan offset grows by the displacement the current controller gives for (dx, dy), and nothing else changes; any other camera only switches panning off |
| OrbitControls.MakeSafe | public/vendor/orbitcontrols.js:267 | the polar angle ends in [1e-6, PI - 1e-6] and is unchanged inside that band |
| OrbitControls.ConstrainPhi | public/vendor/orbitcontrols.js:265-267 | the stored polar angle is in the safe band; it lies within the configured polar limits when they are ordered and meet the band; it equals the input when that is within both the limits and the band |
| OrbitControls.Constrain | public/vendor/orbitcontrols.js:264-271 | distance and azimuth are clamped to their limits and the polar angle is clamped then made safe; so azimuth and distance lie within ordered limits, and the polar angle lies in the safe band and within polar limits that meet it |
| OrbitControls.Update | public/vendor/orbitcontrols.js:249-302 | θ' = clamp(θ + Δθ), φ' = makeSafe(clamp(φ + Δφ)) and r' = clamp(r · scale), with the clamps pinned at the limits; target' = target + panOffset; each equals the unclamped value when that is in range; φ' lies within polar limits that meet the safe band; afterwards Δθ = Δφ = 0, panOffset = 0, scale = 1 and zoomChanged is false |
| OrbitControls.UpdateWhenQuiescent | public/vendor/orbitcontrols.js:259-274 | with identity accumulators, update keeps the target and only clamps the position |
| OrbitControls.Reset | public/vendor/orbitcontrols.js:304-312 | restores target0, position0 and zoom0 (then clamped by update) and leaves the state idle; the configuration, camera kind, saved view and start points are kept |
| OrbitControls.ButtonAction | public/vendor/orbitcontrols.js:202-217 | a button other than 0, 1 or 2 maps to nothing; button 0 maps to the table's LEFT entry, 1 to MIDDLE and 2 to RIGHT |
| OrbitControls.Press | public/vendor/orbitcontrols.js:204-206 | the state becomes the mapped action's state, with that state's start point at the press; nothing else changes: camera, target, configuration, accumulators and the other two start points are kept |
| OrbitControls.OnMouseDown | public/vendor/orbitcontrols.js:199-225 | disabled: no change; a button mapped by LEFT/MIDDLE/RIGHT enters the mapped state with its start point at the event; an unmapped button changes nothing |
| OrbitControls.OnMouseUp | public/vendor/orbitcontrols.js:234-239 | the state becomes idle and nothing else changes |
| OrbitControls.MoveRotate | public/vendor/orbitcontrols.js:170-180 | the angle deltas decrease by 2π × mouse delta × rotateSpeed / element height, and the start point becomes the event point |
| OrbitControls.MoveDolly | public/vendor/orbitcontrols.js:182-189 | dy > 0 dollies in, dy < 0 dollies out, dy = 0 leaves scale and zoom alone; the start point becomes the event point |
| OrbitControls.MovePan | public/vendor/orbitcontrols.js:191-197 | for a perspective or orthographic camera, the pan offset grows by the displacement for mouse delta × panSpeed, measured from the previous point; another camera gets panning switched off; camera, target, state and the other accumulators are kept, and the start point becomes the event point |
| OrbitControls.OnMouseMove | public/vendor/orbitcontrols.js:227-232 | changes nothing unless enabled, non-idle and the state's action is enabled; otherwise it applies the state's move, then update, and stores the event point as the start |
| OrbitControls.OnMouseWheel | public/vendor/orbitcontrols.js:241-246 | a no-op unless enabled, zoom is enabled and the state is idle; deltaY < 0 dollies out, deltaY > 0 dollies in, and update follows |
| OrbitProperties.ConstrainPhiIdempotent | public/vendor/orbitcontrols.js:264-267 | clamping the polar angle and then making it safe is idempotent, even when the two ranges do not overlap |
| OrbitProperties.ConstrainIdempotent | public/vendor/orbitcontrols.js:263-271 | clamping an already clamped position changes nothing |
| OrbitProperties.ConstrainFixedIff | public/vendor/orbitcontrols.js:263-271 | with ordered limits and polar limits that meet the safe band, a position is left alone by the clamps exactly when it lies within every limit and the band |
| OrbitProperties.UpdateIdempotent | public/vendor/orbitcontrols.js:284-287 | a second update with no input in between changes nothing |
| OrbitProperties.IdleFrameIsNoOp | public/vendor/orbitcontrols.js:284-287 | with identity accumulators and a position within its limits, update changes nothing |
| OrbitProperties.StepKeepsQuiescent | public/vendor/orbitcontrols.js:284-287 | each event, including the controller's `reset` and main.js's reset-view button, leaves the accumulators at identity |
| OrbitProperties.RunKeepsQuiescent | public/vendor/orbitcontrols.js:284-287 | after any sequence of events, the accumulators are at identity |
| OrbitProperties.RunWithoutPressStaysIdle | public/vendor/orbitcontrols.js:199-225 | without a button press, the controller stays idle through any run of events |
| OrbitProperties.MoveAfterReleaseIsNoOp | public/vendor/orbitcontrols.js:227-239 | after mouseup, moves change nothing |
| OrbitProperties.RotateDeltaFromPreviousEvent | public/vendor/orbitcontrols.js:170-180 | a second rotate move is measured from the first move's point, not from the press |
| OrbitProperties.DollyHoldStill | public/vendor/orbitcontrols.js:182-189 | a second dolly event at the same point changes nothing |
| OrbitProperties.PanMovesTargetWithCamera | public/vendor/orbitcontrols.js:125-143 | a pan drag on a perspective or orthographic camera moves the target by exactly the drag's displacement; the camera's offset from the target is only re-clamped, so the view neither turns nor dollies, and the zoom is kept |
| OrbitProperties.PanOnOtherCameraDisablesPan | public/vendor/orbitcontrols.js:139-141 | on any other camera a pan drag switches panning off and leaves the target; the next move does nothing |
| OrbitProperties.PerspectiveDollyInOut | public/vendor/orbitcontrols.js:145-163 | dolly in then out by the same factor restores a perspective controller |
| OrbitProperties.OrthographicDollyInOut | public/vendor/orbitcontrols.js:145-163 | dolly in then out restores the orthographic zoom when no limit was hit |
| OrbitProperties.ResetRestoresSavedView | public/vendor/orbitcontrols.js:304-312 | with the saved position within limits, reset restores target, position and zoom exactly and leaves the state idle |
| AppControls.AppConfig | public/main.js:359-365 | the app's controls are the defaults with only the button table replaced by the CAD-style one, and all four enable flags are on |
| AppControls.AppButtonsMap | public/main.js:361-365 | left press starts a dolly, middle a pan, right a rotation, each from the press point |
| AppControls.ResetView | public/main.js:368-372 | the target returns to the origin and the camera to its clamped home position; zoom and interaction state are kept |
| AppControls.ResetViewForgetsHistory | public/main.js:368-372 | the reset view does not depend on earlier orbit, pan or dolly |

## Left out

- `server.js` is not part of this model. It is HTTP static serving, MIME headers and health/diagnostic routes.
- Scene and renderer construction, materials, label sprites (`makeLabelSprite`, `setLabel`, `ensureText`), the animate/resize/label loops and DOM lookups are rendering and UI wiring. The angle labels' positions and texts, the arrow's normalised direction and the `toFixed` readout formatting are left out as well.
- String parsing (`Number(str)`) is left out. Each field arrives parsed as `Fin(r)` or `NonFinite`. A missing input element gives `undefined`, which parses to NaN and so is `NonFinite`. An empty field parses to 0 in JavaScript; that happens before the model starts.
- Missing output elements (the readout, the checkbox) are assumed present, so the optional-chaining skips never happen.
- The `⚠ ` prefix and the CSS colours of the readout are left out. The model keeps the message and a warning flag.
- The mode radio buttons only show or hide field sets. The mode is a parameter of the update-vector event.
- Floating-point rounding is left out. Reals are exact, so `step × segments` equals the swept angle exactly, but `hypot` is the browser's `Math.sqrt`, an unconstrained `MathLib` function, assumed exact only where `RangeIsLength` requires `SqrtAt`.
- `cartesianToSpherical` and `sphericalToCartesian` are not proved to be inverses. They need trigonometric facts, and the round trip holds only up to rounding.
- The controller's Cartesian↔spherical conversions (`setFromVector3`, `setFromSpherical`), the up-axis quaternion, `lookAt` and the camera matrix columns are library behaviour. Because of that, the model keeps the azimuth as accumulated instead of re-deriving it into (-π, π] each frame.
- `UpdateIdempotent`, `IdleFrameIsNoOp` and `ConstrainFixedIff` hold for orbitcontrols.js only when the azimuth limits lie inside (-π, π]. The JavaScript re-derives θ into (-π, π] (orbitcontrols.js:257) before clamping it (orbitcontrols.js:264), and this copy has no wrap handling. So with limits [2, 4], a camera at θ = 3.5 is read back as 3.5 − 2π and snaps to 2 on the next frame. The model's accumulated θ stays at 3.5. main.js leaves the azimuth unbounded, so the app is not affected.
- `makeSafe` comes from the rendering library, not from these files. It is modelled as that library's clamp of the polar angle to [1e-6, π - 1e-6].
- `getZoomScale` (`Math.pow(0.95, zoomSpeed)`) is an opaque positive `zoomScale`. Its default is 0.95 for `zoomSpeed` 1.
- The pan distance (tangent of the field of view, camera matrix columns, element size) is abstracted as the `shift: PanShift` parameter. It maps the controller and the mouse delta to a displacement, so the same delta can pan by different amounts before and after a dolly.
- The `update` change detection is left out: `lastPosition`, `lastQuaternion`, the returned flag and the `change` event. Only its effect on `zoomChanged` is modelled. That flag is always false afterwards, because the branch runs whenever it is set.
- Listener registration and removal, `dispatchEvent`, `contextmenu`, touch, keys, auto-rotate and damping are left out. Without listeners the state is always idle, so delivering every mousemove and mouseup gives the same result.
- `clientHeight` and `zoomScale` are positive by type. A zero-height element would give non-finite rotation deltas in JavaScript; that is not modelled.
- `ArcParams`, `AzimuthArc`, `ElevationArc` and the two arc builders require `segments > 0`. `applyVector` always passes 96 (default 72). With 0, main.js divides by zero and samples one NaN angle.

=== FILE: app_controls.dfy ===
/** How public/main.js sets up and uses the orbit controls: the CAD-style
    button mapping (left dollies, middle pans, right rotates) and the
    `#reset-view` button, which puts the camera back at its home position
    looking at the origin.
 */
module AppControls {
  import opened Numbers
  import opened OrbitControls

  /** The `mouseButtons` table main.js installs. */
  const AppButtons: ButtonMap := ButtonMap(Some(MouseDolly), Some(MousePan), Some(MouseRotate))

  /** The controls as main.js configures them: defaults, with its button table. */
  function AppConfig(clientHeight: PositiveReal): (cfg: Config)
    ensures cfg.mouseButtons == AppButtons
    ensures cfg.enabled && cfg.enableZoom && cfg.enablePan && cfg.enableRotate
    ensures cfg.(mouseButtons := DefaultConfig(clientHeight).mouseButtons) == DefaultConfig(clientHeight)
  {
    DefaultConfig(clientHeight).(mouseButtons := AppButtons)
  }

  /** With main.js's table, pressing the left button starts a dolly, the middle
      one a pan and the right one a rotation, each from the press point. */
  lemma AppButtonsMap(c: Controls, at: Point2)
    requires c.config.enabled && c.config.mouseButtons == AppButtons
    ensures OnMouseDown(c, 0, at).state == Dolly && OnMouseDown(c, 0, at).dollyStart == at
    ensures OnMouseDown(c, 1, at).state == Pan && OnMouseDown(c, 1, at).panStart == at
    ensures OnMouseDown(c, 2, at).state == Rotate && OnMouseDown(c, 2, at).rotateStart == at
  {
  }

  /** `resetView`: the camera goes to `home` (its position (6, 5, 8) seen from
      the origin, in spherical form), the target to the origin, then `update`.
      Unlike the controller's own `reset`, the zoom and the interaction state
      are left as they are. */
  function ResetView(c: Controls, home: Spherical): (d: Controls)
    ensures d.state == c.state && d.camera.zoom == c.camera.zoom
    ensures Quiescent(d)
    ensures Quiescent(c) ==> d.target == Origin && d.camera.offset == Constrain(c.config, home)
  {
    var placed := c.(camera := c.camera.(offset := home), target := Origin);
    // Hints for the solver: the record update keeps the configuration and the
    // accumulators, so `UpdateWhenQuiescent` about `placed` speaks of `c`.
    assert placed.config == c.config && placed.camera.offset == home;
    assert Quiescent(placed) == Quiescent(c);
    UpdateWhenQuiescent(placed);
    Update(placed)
  }

  /** Whatever orbit, pan and dolly came before, the reset view is the same:
      two controllers with the same configuration end at the same target and
      camera position. */
  lemma ResetViewForgetsHistory(c1: Controls, c2: Controls, home: Spherical)
    requires Quiescent(c1) && Quiescent(c2)
    requires c1.config == c2.config
    ensures ResetView(c1, home).target == ResetView(c2, home).target
    ensures ResetView(c1, home).camera.offset == ResetView(c2, home).camera.offset
  {
  }
}

=== FILE: numbers.dfy ===
/** Shared numeric vocabulary for the vector visualiser and its camera controls:
    JavaScript numbers as reals with an explicit non-finite case, three-component
    vectors, one-sided bounds that may be infinite, and the `Math.max(lo, Math.min(hi, v))`
    clamp the JavaScript writes out by hand.
 */
module Numbers {

  /** A JavaScript number: a finite value, or one of NaN / +Infinity / -Infinity. */
  datatype Num = Fin(r: real) | NonFinite

  datatype Option<+T> = None | Some(value: T)

  /** A point or direction in scene space (`THREE.Vector3`). */
  datatype Vec3 = Vec3(x: real, y: real, z: real)

  const Origin: Vec3 := Vec3(0.0, 0.0, 0.0)

  /** `Math.PI`, the double nearest to pi. */
  const Pi: real := 3.141592653589793

  function Add(a: Vec3, b: Vec3): Vec3 {
    Vec3(a.x + b.x, a.y + b.y, a.z + b.z)
  }

  /** x² + y² + z²; main.js compares `Math.hypot(x, y, z)` against a threshold,
      which is the same as comparing this against the threshold squared. */
  function SquaredLength(v: Vec3): real {
    v.x * v.x + v.y * v.y + v.z * v.z
  }

  function Max(a: real, b: real): real {
    if a < b then b else a
  }

  function Min(a: real, b: real): real {
    if a < b then a else b
  }

  function Abs(a: real): real {
    if a < 0.0 then -a else a
  }

  /** A configured limit. `Unbounded` is `-Infinity` when it is a lower limit
      and `+Infinity` when it is an upper one. */
  datatype Bound = Unbounded | Bounded(value: real)

  predicate Ordered(lo: Bound, hi: Bound) {
    lo.Bounded? && hi.Bounded? ==> lo.value <= hi.value
  }

  predicate Within(lo: Bound, hi: Bound, v: real) {
    && (lo.Bounded? ==> lo.value <= v)
    && (hi.Bounded? ==> v <= hi.value)
  }

  /** `Math.max(lo, v)` for a lower limit. */
  function AtLeast(lo: Bound, v: real): real {
    if lo.Bounded? then Max(lo.value, v) else v
  }

  /** `Math.min(hi, v)` for an upper limit. */
  function AtMost(hi: Bound, v: real): real {
    if hi.Bounded? then Min(hi.value, v) else v
  }

  /** `Math.max(lo, Math.min(hi, v))`: the lower limit is applied last, so it wins
      when the two limits cross. */
  function Clamp(lo: Bound, hi: Bound, v: real): (r: real)
    ensures Ordered(lo, hi) ==> Within(lo, hi, r)
    ensures Within(lo, hi, v) ==> r == v
    ensures !Ordered(lo, hi) ==> r == lo.value
    ensures lo.Bounded? ==> lo.value <= r
    ensures lo.Bounded? && v < lo.value ==> r == lo.value
    ensures Ordered(lo, hi) && hi.Bounded? && hi.value < v ==> r == hi.value
  {
    AtLeast(lo, AtMost(hi, v))
  }

  /** Clamping a clamped value changes nothing, whether or not the limits are ordered. */
  lemma ClampIdempotent(lo: Bound, hi: Bound, v: real)
    ensures Clamp(lo, hi, Clamp(lo, hi, v)) == Clamp(lo, hi, v)
  {
  }

  /** The browser's `Math` functions the JavaScript calls. They are not modelled;
      every operation that needs them takes them as a parameter, so a property
      proved here holds for whatever values the browser computes. */
  datatype MathLib = MathLib(
    sin: real -> real,
    cos: real -> real,
    atan2: (real, real) -> real,
    sqrt: real -> real)

  /** sin² t + cos² t = 1 at one point: the only fact about the trigonometric
      functions any property here relies on, and only where it says so. */
  predicate TrigIdentityAt(m: MathLib, t: real) {
    m.sin(t) * m.sin(t) + m.cos(t) * m.cos(t) == 1.0
  }

  /** `m.sqrt` is a true square root at `x`: non-negative, and squaring it gives `x`. */
  predicate SqrtAt(m: MathLib, x: real) {
    m.sqrt(x) >= 0.0 && m.sqrt(x) * m.sqrt(x) == x
  }

  /** `Math.hypot(a, b)` */
  function Hypot2(m: MathLib, a: real, b: real): real {
    m.sqrt(a * a + b * b)
  }

  /** `Math.hypot(x, y, z)` */
  function Hypot3(m: MathLib, v: Vec3): real {
    m.sqrt(SquaredLength(v))
  }
}

=== FILE: orbit_controls.dfy ===
/** The interaction state machine of the patched `OrbitControls`
    (public/vendor/orbitcontrols.js): mouse buttons map to rotate / dolly / pan
    through a configurable table; moves and wheel steps add to per-frame
    accumulators; `update` applies the accumulators to the camera's spherical
    position around the target, clamps it, and resets the accumulators.

    The camera position is kept as its spherical offset from the target, so
    the library's Cartesian/spherical conversions, the up-axis quaternion and
    `lookAt` do not appear. A pan step's world-space displacement (computed by
    the library from the camera matrix and field of view) is a parameter
    function of the controller and the mouse delta.
 */
module OrbitControls {
  import opened Numbers

  /** `STATE`: `Idle` is `STATE.NONE`. */
  datatype State = Idle | Rotate | Dolly | Pan

  /** The `THREE.MOUSE` actions a button can be mapped to. */
  datatype MouseAction = MouseRotate | MouseDolly | MousePan

  /** `mouseButtons`; a button mapped to anything else is `None`. */
  datatype ButtonMap = ButtonMap(left: Option<MouseAction>, middle: Option<MouseAction>, right: Option<MouseAction>)

  datatype Point2 = Point2(x: real, y: real)

  datatype CameraKind = Perspective | Orthographic | OtherCamera

  /** `THREE.Spherical`: distance from the target, polar angle from +Y, azimuth. */
  datatype Spherical = Spherical(radius: real, phi: real, theta: real)

  /** The controlled camera: its position as an offset from the target, and its zoom. */
  datatype Camera = Camera(kind: CameraKind, offset: Spherical, zoom: real)

  type PositiveReal = r: real | r > 0.0 witness 1.0

  /** The public configuration fields the handlers read. `zoomScale` is
      `getZoomScale()`, i.e. 0.95 raised to `zoomSpeed`; `clientHeight` is the
      DOM element's height in pixels. */
  datatype Config = Config(
    enabled: bool,
    enableZoom: bool,
    enableRotate: bool,
    enablePan: bool,
    minDistance: Bound, maxDistance: Bound,
    minZoom: Bound, maxZoom: Bound,
    minPolarAngle: Bound, maxPolarAngle: Bound,
    minAzimuthAngle: Bound, maxAzimuthAngle: Bound,
    zoomScale: PositiveReal,
    rotateSpeed: real,
    panSpeed: real,
    mouseButtons: ButtonMap,
    clientHeight: PositiveReal)

  /** Everything the controller's closures hold. `thetaDelta`/`phiDelta` are
      `sphericalDelta`; `offset0` is `position0` relative to `target0`. */
  datatype Controls = Controls(
    config: Config,
    camera: Camera,
    target: Vec3,
    state: State,
    thetaDelta: real,
    phiDelta: real,
    panOffset: Vec3,
    scale: real,
    zoomChanged: bool,
    rotateStart: Point2,
    dollyStart: Point2,
    panStart: Point2,
    target0: Vec3,
    offset0: Spherical,
    zoom0: real)

  /** The world-space displacement `pan(dx, dy)` adds to the pan offset. The
      library derives it from the controller's current camera (its distance to
      the target, field of view or frustum, zoom and matrix) and the element's
      size, so it is a function of the whole controller. */
  type PanShift = (Controls, real, real) -> Vec3

  /** `getZoomScale()` with the default `zoomSpeed` of 1. */
  const DefaultZoomScale: PositiveReal := 0.95

  /** The margin `Spherical.makeSafe` keeps the polar angle away from the poles. */
  const SafeEps: real := 0.000001

  /** The constructor's defaults. */
  function DefaultConfig(clientHeight: PositiveReal): (c: Config)
    ensures c.enabled && c.enableZoom && c.enableRotate && c.enablePan
    ensures c.mouseButtons == ButtonMap(Some(MouseRotate), Some(MouseDolly), Some(MousePan))
    ensures Ordered(c.minDistance, c.maxDistance) && Ordered(c.minZoom, c.maxZoom)
    ensures Ordered(c.minPolarAngle, c.maxPolarAngle) && Ordered(c.minAzimuthAngle, c.maxAzimuthAngle)
    ensures forall theta :: Within(c.minAzimuthAngle, c.maxAzimuthAngle, theta)
    ensures forall r :: Within(c.minDistance, c.maxDistance, r) <==> 0.0 <= r
    ensures forall phi :: Within(c.minPolarAngle, c.maxPolarAngle, phi) <==> 0.0 <= phi <= Pi
    ensures c.zoomScale == DefaultZoomScale && c.rotateSpeed == 1.0 && c.panSpeed == 1.0
  {
    Config(true, true, true, true,
           Bounded(0.0), Unbounded,
           Bounded(0.0), Unbounded,
           Bounded(0.0), Bounded(Pi),
           Unbounded, Unbounded,
           DefaultZoomScale, 1.0, 1.0,
           ButtonMap(Some(MouseRotate), Some(MouseDolly), Some(MousePan)),
           clientHeight)
  }

  /** The per-frame accumulators are at identity and no zoom change is pending. */
  predicate Quiescent(c: Controls) {
    c.thetaDelta == 0.0 && c.phiDelta == 0.0 && c.panOffset == Origin && c.scale == 1.0 && !c.zoomChanged
  }

  /** The constructor: the camera as found, the target at the origin, both saved
      for `reset`, no interaction in progress. */
  function Construct(config: Config, camera: Camera): (c: Controls)
    ensures c.state == Idle && Quiescent(c)
    ensures c.target0 == c.target && c.offset0 == c.camera.offset && c.zoom0 == c.camera.zoom
    ensures c.config == config && c.camera == camera && c.target == Origin
  {
    Controls(config, camera, Origin, Idle, 0.0, 0.0, Origin, 1.0, false,
             Point2(0.0, 0.0), Point2(0.0, 0.0), Point2(0.0, 0.0),
             Origin, camera.offset, camera.zoom)
  }

  /* ---------- accumulators ---------- */

  /** `rotateLeft(angle)` */
  function RotateLeft(c: Controls, angle: real): (d: Controls)
    ensures d.thetaDelta + angle == c.thetaDelta
    ensures d == c.(thetaDelta := d.thetaDelta)
  {
    c.(thetaDelta := c.thetaDelta - angle)
  }

  /** `rotateUp(angle)` */
  function RotateUp(c: Controls, angle: real): (d: Controls)
    ensures d.phiDelta + angle == c.phiDelta
    ensures d == c.(phiDelta := d.phiDelta)
  {
    c.(phiDelta := c.phiDelta - angle)
  }

  /** `dollyIn(s)`: for a perspective camera the next `update` divides the radius
      by `s`; an orthographic one multiplies its zoom by `s` within the zoom
      limits; any other camera is left alone. */
  function DollyIn(c: Controls, s: PositiveReal): (d: Controls)
    ensures c.camera.kind == Perspective ==> d == c.(scale := d.scale) && d.scale * s == c.scale
    ensures c.camera.kind == Orthographic ==>
              && d == c.(camera := d.camera, zoomChanged := true)
              && d.camera == c.camera.(zoom := d.camera.zoom)
              && (Ordered(c.config.minZoom, c.config.maxZoom) ==> Within(c.config.minZoom, c.config.maxZoom, d.camera.zoom))
              && (Within(c.config.minZoom, c.config.maxZoom, c.camera.zoom * s) ==> d.camera.zoom == c.camera.zoom * s)
              && d.camera.zoom == Clamp(c.config.minZoom, c.config.maxZoom, c.camera.zoom * s)
    ensures c.camera.kind == OtherCamera ==> d == c
  {
    match c.camera.kind
    case Perspective => c.(scale := c.scale / s)
    case Orthographic =>
      var zoom := Clamp(c.config.minZoom, c.config.maxZoom, c.camera.zoom * s);
      c.(camera := c.camera.(zoom := zoom), zoomChanged := true)
    case OtherCamera => c
  }

  /** `dollyOut(s)`: the mirror image of `DollyIn`. */
  function DollyOut(c: Controls, s: PositiveReal): (d: Controls)
    ensures c.camera.kind == Perspective ==> d == c.(scale := d.scale) && d.scale == c.scale * s
    ensures c.camera.kind == Orthographic ==>
              && d == c.(camera := d.camera, zoomChanged := true)
              && d.camera == c.camera.(zoom := d.camera.zoom)
              && (Ordered(c.config.minZoom, c.config.maxZoom) ==> Within(c.config.minZoom, c.config.maxZoom, d.camera.zoom))
              && (Within(c.config.minZoom, c.config.maxZoom, c.camera.zoom / s) ==> d.camera.zoom == c.camera.zoom / s)
              && d.camera.zoom == Clamp(c.config.minZoom, c.config.maxZoom, c.camera.zoom / s)
    ensures c.camera.kind == OtherCamera ==> d == c
  {
    match c.camera.kind
    case Perspective => c.(scale := c.scale * s)
    case Orthographic =>
      var zoom := Clamp(c.config.minZoom, c.config.maxZoom, c.camera.zoom / s);
      c.(camera := c.camera.(zoom := zoom), zoomChanged := true)
    case OtherCamera => c
  }

  /** `pan(dx, dy)`: adds the camera-relative displacement `shift(c, dx, dy)`
      to the pan offset; with a camera that is neither perspective nor
      orthographic it switches panning off instead. */
  function PanBy(c: Controls, dx: real, dy: real, shift: PanShift): (d: Controls)
    ensures c.camera.kind != OtherCamera ==>
              d.panOffset == Add(c.panOffset, shift(c, dx, dy)) && d.(panOffset := c.panOffset) == c
    ensures c.camera.kind == OtherCamera ==> !d.config.enablePan && d.panOffset == c.panOffset
    ensures c.camera.kind == OtherCamera ==> d.(config := c.config) == c && d.config.(enablePan := c.config.enablePan) == c.config
  {
    match c.camera.kind
    case Perspective => c.(panOffset := Add(c.panOffset, shift(c, dx, dy)))
    case Orthographic => c.(panOffset := Add(c.panOffset, shift(c, dx, dy)))
    case OtherCamera => c.(config := c.config.(enablePan := false))
  }

  /* ---------- update ---------- */

  /** `Spherical.makeSafe`: the polar angle is kept `SafeEps` away from both poles. */
  function MakeSafe(phi: real): (r: real)
    ensures SafeEps <= r <= Pi - SafeEps
    ensures SafeEps <= phi <= Pi - SafeEps ==> r == phi
  {
    Max(SafeEps, Min(Pi - SafeEps, phi))
  }

  /** Polar limits that are ordered and meet the band `makeSafe` keeps to. */
  predicate PolarLimitsMeetBand(cfg: Config) {
    && Ordered(cfg.minPolarAngle, cfg.maxPolarAngle)
    && (cfg.minPolarAngle.Bounded? ==> cfg.minPolarAngle.value <= Pi - SafeEps)
    && (cfg.maxPolarAngle.Bounded? ==> SafeEps <= cfg.maxPolarAngle.value)
  }

  /** The polar angle `update` stores: clamped to the configured range, then made safe. */
  function ConstrainPhi(cfg: Config, phi: real): (r: real)
    ensures SafeEps <= r <= Pi - SafeEps
    ensures PolarLimitsMeetBand(cfg) ==> Within(cfg.minPolarAngle, cfg.maxPolarAngle, r)
    ensures Within(cfg.minPolarAngle, cfg.maxPolarAngle, phi) && SafeEps <= phi <= Pi - SafeEps ==> r == phi
  {
    MakeSafe(Clamp(cfg.minPolarAngle, cfg.maxPolarAngle, phi))
  }

  /** The clamping half of `update`, on a spherical position. */
  function Constrain(cfg: Config, s: Spherical): (r: Spherical)
    ensures Ordered(cfg.minAzimuthAngle, cfg.maxAzimuthAngle) ==> Within(cfg.minAzimuthAngle, cfg.maxAzimuthAngle, r.theta)
    ensures Ordered(cfg.minDistance, cfg.maxDistance) ==> Within(cfg.minDistance, cfg.maxDistance, r.radius)
    ensures SafeEps <= r.phi <= Pi - SafeEps
    ensures PolarLimitsMeetBand(cfg) ==> Within(cfg.minPolarAngle, cfg.maxPolarAngle, r.phi)
    ensures r.radius == Clamp(cfg.minDistance, cfg.maxDistance, s.radius)
    ensures r.theta == Clamp(cfg.minAzimuthAngle, cfg.maxAzimuthAngle, s.theta)
    ensures r.phi == MakeSafe(Clamp(cfg.minPolarAngle, cfg.maxPolarAngle, s.phi))
  {
    Spherical(Clamp(cfg.minDistance, cfg.maxDistance, s.radius),
              ConstrainPhi(cfg, s.phi),
              Clamp(cfg.minAzimuthAngle, cfg.maxAzimuthAngle, s.theta))
  }

  /** `update()`: add the rotation deltas, clamp azimuth and polar angle, keep
      away from the poles, scale and clamp the radius, move the target by the
      pan offset, then reset every accumulator. `zoomChanged` is cleared by the
      change-detection branch, which always runs when it is set. */
  function Update(c: Controls): (d: Controls)
    ensures Quiescent(d)
    ensures d.target == Add(c.target, c.panOffset)
    ensures d.camera.kind == c.camera.kind && d.camera.zoom == c.camera.zoom
    ensures d.config == c.config && d.state == c.state
    ensures d.rotateStart == c.rotateStart && d.dollyStart == c.dollyStart && d.panStart == c.panStart
    ensures d.target0 == c.target0 && d.offset0 == c.offset0 && d.zoom0 == c.zoom0
    ensures var cfg, o, o' := c.config, c.camera.offset, d.camera.offset;
      && (Ordered(cfg.minAzimuthAngle, cfg.maxAzimuthAngle) ==> Within(cfg.minAzimuthAngle, cfg.maxAzimuthAngle, o'.theta))
      && (Within(cfg.minAzimuthAngle, cfg.maxAzimuthAngle, o.theta + c.thetaDelta) ==> o'.theta == o.theta + c.thetaDelta)
      && SafeEps <= o'.phi <= Pi - SafeEps
      && ((Within(cfg.minPolarAngle, cfg.maxPolarAngle, o.phi + c.phiDelta) && SafeEps <= o.phi + c.phiDelta <= Pi - SafeEps)
            ==> o'.phi == o.phi + c.phiDelta)
      && (Ordered(cfg.minDistance, cfg.maxDistance) ==> Within(cfg.minDistance, cfg.maxDistance, o'.radius))
      && (Within(cfg.minDistance, cfg.maxDistance, o.radius * c.scale) ==> o'.radius == o.radius * c.scale)
      && (PolarLimitsMeetBand(cfg) ==> Within(cfg.minPolarAngle, cfg.maxPolarAngle, o'.phi))
      && o'.theta == Clamp(cfg.minAzimuthAngle, cfg.maxAzimuthAngle, o.theta + c.thetaDelta)
      && o'.phi == MakeSafe(Clamp(cfg.minPolarAngle, cfg.maxPolarAngle, o.phi + c.phiDelta))
      && o'.radius == Clamp(cfg.minDistance, cfg.maxDistance, o.radius * c.scale)
  {
    var o := c.camera.offset;
    var moved := Spherical(o.radius * c.scale, o.phi + c.phiDelta, o.theta + c.thetaDelta);
    c.(camera := c.camera.(offset := Constrain(c.config, moved)),
       target := Add(c.target, c.panOffset),
       thetaDelta := 0.0, phiDelta := 0.0,
       panOffset := Origin,
       scale := 1.0,
       zoomChanged := false)
  }

  /** With nothing accumulated, `update` only clamps the position: the target
      stays where it is. */
  lemma UpdateWhenQuiescent(c: Controls)
    ensures Quiescent(c) ==> Update(c).target == c.target
    ensures Quiescent(c) ==> Update(c).camera.offset == Constrain(c.config, c.camera.offset)
  {
    var o := c.camera.offset;
    if Quiescent(c) {
      assert Spherical(o.radius * c.scale, o.phi + c.phiDelta, o.theta + c.thetaDelta) == o;
    }
  }

  /** `reset()`: restore the saved target, position and zoom, run `update`,
      and end any interaction. */
  function Reset(c: Controls): (d: Controls)
    ensures d.state == Idle && Quiescent(d)
    ensures d.target == Add(c.target0, c.panOffset)
    ensures d.camera.zoom == c.zoom0
    ensures Quiescent(c) ==> d.target == c.target0 && d.camera.offset == Constrain(c.config, c.offset0)
    ensures d.config == c.config && d.camera.kind == c.camera.kind
    ensures d.target0 == c.target0 && d.offset0 == c.offset0 && d.zoom0 == c.zoom0
    ensures d.rotateStart == c.rotateStart && d.dollyStart == c.dollyStart && d.panStart == c.panStart
  {
    var restored := c.(target := c.target0, camera := c.camera.(offset := c.offset0, zoom := c.zoom0));
    Update(restored).(state := Idle)
  }

  /* ---------- mouse handlers ---------- */

  /** The action a physical button (0 left, 1 middle, 2 right) is mapped to. */
  function ButtonAction(buttons: ButtonMap, button: int): (a: Option<MouseAction>)
    ensures !(0 <= button <= 2) ==> a.None?
    ensures a.Some? ==> a == buttons.left || a == buttons.middle || a == buttons.right
    ensures button == 0 ==> a == buttons.left
    ensures button == 1 ==> a == buttons.middle
    ensures button == 2 ==> a == buttons.right
  {
    if button == 0 then buttons.left
    else if button == 1 then buttons.middle
    else if button == 2 then buttons.right
    else None
  }

  function StateFor(action: MouseAction): State {
    match action
    case MouseRotate => Rotate
    case MouseDolly => Dolly
    case MousePan => Pan
  }

  /** The start point the move handler of a state measures from. */
  function StartOf(c: Controls, s: State): Point2 {
    match s
    case Rotate => c.rotateStart
    case Dolly => c.dollyStart
    case Pan => c.panStart
    case Idle => Point2(0.0, 0.0)
  }

  /** `handleMouseDown*` followed by `state = STATE.*` for one mapped action. */
  function Press(c: Controls, mapped: MouseAction, at: Point2): (d: Controls)
    ensures d.state == StateFor(mapped) && StartOf(d, d.state) == at
    ensures d.camera == c.camera && d.target == c.target && d.config == c.config && Quiescent(d) == Quiescent(c)
    ensures d.(state := c.state, rotateStart := c.rotateStart, dollyStart := c.dollyStart, panStart := c.panStart) == c
    ensures mapped != MouseRotate ==> d.rotateStart == c.rotateStart
    ensures mapped != MouseDolly ==> d.dollyStart == c.dollyStart
    ensures mapped != MousePan ==> d.panStart == c.panStart
  {
    if mapped == MouseDolly then c.(dollyStart := at, state := Dolly)
    else if mapped == MouseRotate then c.(rotateStart := at, state := Rotate)
    else c.(panStart := at, state := Pan)
  }

  /** `onMouseDown` */
  function OnMouseDown(c: Controls, button: int, at: Point2): (d: Controls)
    ensures !c.config.enabled ==> d == c
    ensures c.config.enabled && ButtonAction(c.config.mouseButtons, button).Some? ==>
              var s := StateFor(ButtonAction(c.config.mouseButtons, button).value);
              && d.state == s
              && StartOf(d, s) == at
              && d.camera == c.camera && d.target == c.target && d.config == c.config
    ensures ButtonAction(c.config.mouseButtons, button).None? ==> d == c
  {
    if !c.config.enabled then c
    else
      match ButtonAction(c.config.mouseButtons, button)
      case Some(mapped) => Press(c, mapped, at)
      case None => c
  }

  /** `onMouseUp`: listener removal and the end event are not modelled. */
  function OnMouseUp(c: Controls): (d: Controls)
    ensures d.state == Idle
    ensures d.camera == c.camera && d.target == c.target && d.config == c.config
    ensures d.(state := c.state) == c
  {
    c.(state := Idle)
  }

  /** `handleMouseMoveRotate` before its `update()` call: the mouse delta,
      scaled by `rotateSpeed`, turns into angle deltas of 2π per element
      height; the start point becomes the event point. */
  function MoveRotate(c: Controls, at: Point2): (d: Controls)
    ensures d.rotateStart == at
    ensures d.thetaDelta == c.thetaDelta - 2.0 * Pi * ((at.x - c.rotateStart.x) * c.config.rotateSpeed) / c.config.clientHeight
    ensures d.phiDelta == c.phiDelta - 2.0 * Pi * ((at.y - c.rotateStart.y) * c.config.rotateSpeed) / c.config.clientHeight
    ensures d == c.(thetaDelta := d.thetaDelta, phiDelta := d.phiDelta, rotateStart := at)
  {
    var dx := (at.x - c.rotateStart.x) * c.config.rotateSpeed;
    var dy := (at.y - c.rotateStart.y) * c.config.rotateSpeed;
    var h := c.config.clientHeight;
    var r := RotateUp(RotateLeft(c, 2.0 * Pi * dx / h), 2.0 * Pi * dy / h);
    r.(rotateStart := at)
  }

  /** `handleMouseMoveDolly` before its `update()` call: downward motion dollies
      in, upward motion dollies out, no vertical motion does neither. */
  function MoveDolly(c: Controls, at: Point2): (d: Controls)
    ensures d.dollyStart == at
    ensures at.y > c.dollyStart.y ==> d == DollyIn(c, c.config.zoomScale).(dollyStart := at)
    ensures at.y < c.dollyStart.y ==> d == DollyOut(c, c.config.zoomScale).(dollyStart := at)
    ensures at.y == c.dollyStart.y ==> d == c.(dollyStart := at)
  {
    var dy := at.y - c.dollyStart.y;
    var r := if dy > 0.0 then DollyIn(c, c.config.zoomScale)
             else if dy < 0.0 then DollyOut(c, c.config.zoomScale)
             else c;
    r.(dollyStart := at)
  }

  /** `handleMouseMovePan` before its `update()` call. */
  function MovePan(c: Controls, at: Point2, shift: PanShift): (d: Controls)
    ensures d.panStart == at
    ensures d.camera == c.camera && d.target == c.target && d.state == c.state
    ensures d.thetaDelta == c.thetaDelta && d.phiDelta == c.phiDelta && d.scale == c.scale
    ensures c.camera.kind != OtherCamera ==>
              && d.panOffset == Add(c.panOffset, shift(c, (at.x - c.panStart.x) * c.config.panSpeed,
                                                         (at.y - c.panStart.y) * c.config.panSpeed))
              && d.config == c.config
    ensures c.camera.kind == OtherCamera ==> d.panOffset == c.panOffset && !d.config.enablePan
  {
    var dx := (at.x - c.panStart.x) * c.config.panSpeed;
    var dy := (at.y - c.panStart.y) * c.config.panSpeed;
    PanBy(c, dx, dy, shift).(panStart := at)
  }

  /** Whether `onMouseMove` does anything: the controls are enabled and the
      current state's action is enabled. */
  predicate HandlesMove(c: Controls) {
    && c.config.enabled
    && ((c.state == Rotate && c.config.enableRotate)
        || (c.state == Dolly && c.config.enableZoom)
        || (c.state == Pan && c.config.enablePan))
  }

  /** `onMouseMove`: each handled move ends with `update()`. */
  function OnMouseMove(c: Controls, at: Point2, shift: PanShift): (d: Controls)
    ensures !HandlesMove(c) ==> d == c
    ensures HandlesMove(c) ==> Quiescent(d) && d.state == c.state && StartOf(d, c.state) == at
    ensures c.state == Rotate && HandlesMove(c) ==> d == Update(MoveRotate(c, at))
    ensures c.state == Dolly && HandlesMove(c) ==> d == Update(MoveDolly(c, at))
    ensures c.state == Pan && HandlesMove(c) ==> d == Update(MovePan(c, at, shift))
  {
    if !c.config.enabled then c
    else if c.state == Rotate && c.config.enableRotate then Update(MoveRotate(c, at))
    else if c.state == Dolly && c.config.enableZoom then Update(MoveDolly(c, at))
    else if c.state == Pan && c.config.enablePan then Update(MovePan(c, at, shift))
    else c
  }

  /** Whether `onMouseWheel` does anything. */
  predicate HandlesWheel(c: Controls) {
    c.config.enabled && c.config.enableZoom && c.state == Idle
  }

  /** `onMouseWheel`: scrolling up dollies out, down dollies in, then `update()`. */
  function OnMouseWheel(c: Controls, deltaY: real): (d: Controls)
    ensures !HandlesWheel(c) ==> d == c
    ensures HandlesWheel(c) ==> Quiescent(d) && d.state == Idle
    ensures HandlesWheel(c) && deltaY < 0.0 ==> d == Update(DollyOut(c, c.config.zoomScale))
    ensures HandlesWheel(c) && deltaY > 0.0 ==> d == Update(DollyIn(c, c.config.zoomScale))
    ensures HandlesWheel(c) && deltaY == 0.0 ==> d == Update(c)
  {
    if !c.config.enabled || !c.config.enableZoom || c.state != Idle then c
    else
      var r := if deltaY < 0.0 then DollyOut(c, c.config.zoomScale)
               else if deltaY > 0.0 then DollyIn(c, c.config.zoomScale)
               else c;
      Update(r)
  }
}

=== FILE: orbit_properties.dfy ===
/** Properties of the orbit controller that relate several calls: the
    reset-after-apply structure of `update` (a second `update` with no input in between changes
    nothing), the accumulators being at identity between events, deltas
    measured from the previous event, and dolly steps undoing each other.
 */
module OrbitProperties {
  import opened Numbers
  import opened OrbitControls
  import AppControls

  /** Polar clamping followed by `makeSafe` is idempotent, even when the
      configured range and the safe range do not overlap. */
  lemma ConstrainPhiIdempotent(cfg: Config, phi: real)
    ensures ConstrainPhi(cfg, ConstrainPhi(cfg, phi)) == ConstrainPhi(cfg, phi)
  {
    var lo, hi := cfg.minPolarAngle, cfg.maxPolarAngle;
    var k := Clamp(lo, hi, phi);
    var once := MakeSafe(k);
    var c := Clamp(lo, hi, once);
    if !Ordered(lo, hi) {
      // crossed limits: the clamp is the constant lower limit
      assert c == k;
    } else if once == k {
      assert c == k;
    } else if k < SafeEps {
      // makeSafe raised the angle to eps; the clamp can only lower it to a limit below eps
      assert once == SafeEps;
      assert c <= SafeEps;
      assert MakeSafe(c) == SafeEps;
    } else {
      // makeSafe lowered the angle to PI - eps; the clamp can only raise it to a limit above that
      assert once == Pi - SafeEps;
      assert c >= Pi - SafeEps;
      assert MakeSafe(c) == Pi - SafeEps;
    }
  }

  /** Clamping a position already clamped changes nothing. */
  lemma ConstrainIdempotent(cfg: Config, s: Spherical)
    ensures Constrain(cfg, Constrain(cfg, s)) == Constrain(cfg, s)
  {
    ConstrainPhiIdempotent(cfg, s.phi);
    ClampIdempotent(cfg.minDistance, cfg.maxDistance, s.radius);
    ClampIdempotent(cfg.minAzimuthAngle, cfg.maxAzimuthAngle, s.theta);
  }

  /** With ordered limits and a polar range that meets the safe band, a position is
      left alone by the clamps exactly when it lies within every limit. */
  lemma ConstrainFixedIff(cfg: Config, s: Spherical)
    requires Ordered(cfg.minDistance, cfg.maxDistance)
    requires Ordered(cfg.minAzimuthAngle, cfg.maxAzimuthAngle)
    requires PolarLimitsMeetBand(cfg)
    ensures Constrain(cfg, s) == s <==>
      && Within(cfg.minDistance, cfg.maxDistance, s.radius)
      && Within(cfg.minAzimuthAngle, cfg.maxAzimuthAngle, s.theta)
      && Within(cfg.minPolarAngle, cfg.maxPolarAngle, s.phi)
      && SafeEps <= s.phi <= Pi - SafeEps
  {
  }

  /** A second `update` right after the first changes nothing: the first one
      reset every accumulator, and clamping is idempotent. */
  lemma UpdateIdempotent(c: Controls)
    ensures Update(Update(c)) == Update(c)
  {
    var d := Update(c);
    var o := d.camera.offset;
    assert Spherical(o.radius * d.scale, o.phi + d.phiDelta, o.theta + d.thetaDelta) == o;
    ConstrainIdempotent(c.config, Spherical(c.camera.offset.radius * c.scale,
                                            c.camera.offset.phi + c.phiDelta,
                                            c.camera.offset.theta + c.thetaDelta));
  }

  /** With nothing accumulated, an `update` of a position within its limits is a
      no-op: the camera does not drift from frame to frame. */
  lemma IdleFrameIsNoOp(c: Controls)
    requires Quiescent(c)
    requires Constrain(c.config, c.camera.offset) == c.camera.offset
    ensures Update(c) == c
  {
    var o := c.camera.offset;
    assert Spherical(o.radius * c.scale, o.phi + c.phiDelta, o.theta + c.thetaDelta) == o;
  }

  /** Inputs the controller receives. `Frame` is the render loop's `update()`,
      `ResetControls` the controller's own `reset()`, and `ResetViewButton`
      main.js's `#reset-view` button with the home position it restores. */
  datatype ControlEvent =
    | MouseDown(button: int, at: Point2)
    | MouseMove(at: Point2)
    | MouseUp
    | Wheel(deltaY: real)
    | Frame
    | ResetControls
    | ResetViewButton(home: Spherical)

  function Step(c: Controls, e: ControlEvent, shift: PanShift): Controls {
    match e
    case MouseDown(button, at) => OnMouseDown(c, button, at)
    case MouseMove(at) => OnMouseMove(c, at, shift)
    case MouseUp => OnMouseUp(c)
    case Wheel(dy) => OnMouseWheel(c, dy)
    case Frame => Update(c)
    case ResetControls => Reset(c)
    case ResetViewButton(home) => AppControls.ResetView(c, home)
  }

  function Run(c: Controls, es: seq<ControlEvent>, shift: PanShift): Controls
    decreases |es|
  {
    if |es| == 0 then c else Run(Step(c, es[0], shift), es[1..], shift)
  }

  /** Every event leaves the accumulators at identity: a handler either does
      nothing or ends with `update()`. */
  lemma StepKeepsQuiescent(c: Controls, e: ControlEvent, shift: PanShift)
    requires Quiescent(c)
    ensures Quiescent(Step(c, e, shift))
  {
  }

  /** From construction on, the accumulators are at identity between any two
      events, so motion never carries over from earlier input. */
  lemma {:induction false} RunKeepsQuiescent(c: Controls, es: seq<ControlEvent>, shift: PanShift)
    requires Quiescent(c)
    ensures Quiescent(Run(c, es, shift))
    decreases |es|
  {
    if |es| > 0 {
      StepKeepsQuiescent(c, es[0], shift);
      RunKeepsQuiescent(Step(c, es[0], shift), es[1..], shift);
    }
  }

  /** Without a button press, a run of moves and wheel steps never starts an
      interaction: the state stays `Idle`. */
  lemma {:induction false} RunWithoutPressStaysIdle(c: Controls, es: seq<ControlEvent>, shift: PanShift)
    requires c.state == Idle
    requires forall i :: 0 <= i < |es| ==> !es[i].MouseDown?
    ensures Run(c, es, shift).state == Idle
    decreases |es|
  {
    if |es| > 0 {
      var d := Step(c, es[0], shift);
      assert d.state == Idle;
      assert forall i :: 0 <= i < |es[1..]| ==> !es[1..][i].MouseDown? by {
        forall i | 0 <= i < |es[1..]| ensures !es[1..][i].MouseDown? {
          assert es[1..][i] == es[i + 1];
        }
      }
      RunWithoutPressStaysIdle(d, es[1..], shift);
    }
  }

  /** After a release, moves do nothing. */
  lemma MoveAfterReleaseIsNoOp(c: Controls, at: Point2, shift: PanShift)
    ensures OnMouseMove(OnMouseUp(c), at, shift) == OnMouseUp(c)
  {
  }

  /** Two rotate moves in a row: the second is measured from the first event's
      point, not from where the button was pressed. */
  lemma RotateDeltaFromPreviousEvent(c: Controls, p1: Point2, p2: Point2, shift: PanShift)
    requires c.state == Rotate && HandlesMove(c)
    ensures var d := OnMouseMove(c, p1, shift);
      && HandlesMove(d)
      && MoveRotate(d, p2).thetaDelta == -(2.0 * Pi * ((p2.x - p1.x) * c.config.rotateSpeed) / c.config.clientHeight)
      && MoveRotate(d, p2).phiDelta == -(2.0 * Pi * ((p2.y - p1.y) * c.config.rotateSpeed) / c.config.clientHeight)
  {
  }

  /** Two dolly moves in a row: the second compares against the first event's
      height, so a second event at the same point changes nothing at all. */
  lemma DollyHoldStill(c: Controls, p: Point2, shift: PanShift)
    requires c.state == Dolly && HandlesMove(c)
    ensures var d := OnMouseMove(c, p, shift);
      OnMouseMove(d, p, shift) == d
  {
    var d := OnMouseMove(c, p, shift);
    assert d == Update(MoveDolly(c, p));
    assert MoveDolly(d, p) == d;
    UpdateIdempotent(MoveDolly(c, p));
  }

  /** A pan drag on a perspective or orthographic camera moves the target by
      exactly the displacement the drag's mouse delta stands for, and the camera
      moves with it: its offset from the target is only re-clamped, so the view
      neither turns nor dollies, and the zoom stays. */
  lemma {:induction false} PanMovesTargetWithCamera(c: Controls, at: Point2, shift: PanShift)
    requires Quiescent(c) && c.state == Pan && HandlesMove(c) && c.camera.kind != OtherCamera
    ensures var d := OnMouseMove(c, at, shift);
      && d.target == Add(c.target, shift(c, (at.x - c.panStart.x) * c.config.panSpeed,
                                          (at.y - c.panStart.y) * c.config.panSpeed))
      && d.camera.offset == Constrain(c.config, c.camera.offset)
      && d.camera.zoom == c.camera.zoom
      && d.state == Pan && d.panStart == at && Quiescent(d)
  {
    var p := MovePan(c, at, shift);
    var o := p.camera.offset;
    assert p.panOffset == Add(Origin, shift(c, (at.x - c.panStart.x) * c.config.panSpeed,
                                               (at.y - c.panStart.y) * c.config.panSpeed));
    assert Spherical(o.radius * p.scale, o.phi + p.phiDelta, o.theta + p.thetaDelta) == c.camera.offset;
  }

  /** A pan drag on a camera that is neither perspective nor orthographic
      switches panning off: the view stays, and later moves do nothing. */
  lemma PanOnOtherCameraDisablesPan(c: Controls, at: Point2, next: Point2, shift: PanShift)
    requires Quiescent(c) && c.state == Pan && HandlesMove(c) && c.camera.kind == OtherCamera
    ensures var d := OnMouseMove(c, at, shift);
      && !d.config.enablePan
      && d.target == c.target
      && OnMouseMove(d, next, shift) == d
  {
  }

  /** For a perspective camera, dollying in then out by the same factor leaves
      the pending scale where it was. */
  lemma PerspectiveDollyInOut(c: Controls, s: PositiveReal)
    requires c.camera.kind == Perspective
    ensures DollyOut(DollyIn(c, s), s) == c
  {
    assert c.scale / s * s == c.scale;
  }

  /** For an orthographic camera, dollying in then out restores the zoom when
      neither step hit a zoom limit. */
  lemma OrthographicDollyInOut(c: Controls, s: PositiveReal)
    requires c.camera.kind == Orthographic
    requires Within(c.config.minZoom, c.config.maxZoom, c.camera.zoom * s)
    requires Within(c.config.minZoom, c.config.maxZoom, c.camera.zoom)
    ensures DollyOut(DollyIn(c, s), s).camera == c.camera
    ensures DollyOut(DollyIn(c, s), s).zoomChanged
  {
    assert c.camera.zoom * s / s == c.camera.zoom;
  }

  /** `reset` brings back the saved target, position and zoom whenever the saved
      position lies within the limits, whatever happened before. */
  lemma ResetRestoresSavedView(c: Controls)
    requires Quiescent(c)
    requires Constrain(c.config, c.offset0) == c.offset0
    ensures Reset(c).target == c.target0
    ensures Reset(c).camera.offset == c.offset0
    ensures Reset(c).camera.zoom == c.zoom0
    ensures Reset(c).state == Idle
  {
  }
}

=== FILE: safe_input.dfy ===
/** Validation of one numeric form field (`safeNumber` in public/main.js).
    String parsing (`Number(str)`) is not modelled: the field arrives already
    parsed, finite or not.
 */
module SafeInput {
  import opened Numbers

  /** Largest magnitude a form field may hold. */
  const MaxMagnitude: real := 1000000.0

  /** The `{ ok, value }` record `safeNumber` returns. */
  datatype Parsed = Parsed(ok: bool, value: real)

  /** The acceptance rule, stated on its own: finite and within ±1e6. */
  predicate Acceptable(v: Num) {
    v.Fin? && -MaxMagnitude <= v.r <= MaxMagnitude
  }

  function SafeNumber(v: Num, fallback: real): (p: Parsed)
    ensures p.ok <==> Acceptable(v)
    ensures p.ok ==> p.value == v.r
    ensures !p.ok ==> p.value == fallback
    ensures p.ok ==> Abs(p.value) <= MaxMagnitude
  {
    if !v.Fin? then Parsed(false, fallback)
    else if Abs(v.r) > MaxMagnitude then Parsed(false, fallback)
    else Parsed(true, v.r)
  }
}

=== FILE: vector_app.dfy ===
/** The application state of public/main.js and the handlers that change it.
    The state is the last accepted vector, the cube's dimensions, the
    projection toggle, and what the scene currently shows. Every handler is
    reject-and-retain: input that fails validation leaves the vector and the
    cube as they were and turns the readout to its warning colour.
 */
module VectorApp {
  import opened Numbers
  import opened SafeInput
  import opened VectorScene

  datatype Dims = Dims(width: real, height: real, depth: real)

  /** Which field set the `#update-vector` button reads. */
  datatype Mode = Cartesian | Angles

  datatype App = App(lastVector: Vec3, cube: Dims, showProjections: bool, scene: Scene)

  const InitialVector: Vec3 := Vec3(2.0, 1.0, 1.5)
  const InitialCube: Dims := Dims(2.0, 2.0, 2.0)

  /** A vector is drawn only when its length exceeds 1e-9, that is when its
      squared length exceeds 1e-18. */
  const MinSquaredLength: real := 0.000000000000000001

  /** Smallest cube dimension the box handler builds. */
  const MinDimension: real := 0.01

  /** Fallback `safeNumber` is given for the cube fields; it never reaches the cube. */
  const DefaultDimension: real := 2.0

  const NotFiniteMessage: string := "Vector inputs must be finite numbers. Keeping previous vector."
  const TooShortMessage: string := "Vector length is zero or too small. Keeping previous vector."
  const CartesianFieldsMessage: string := "Enter numeric X, Y, Z."
  const AngleFieldsMessage: string := "Enter numeric Range/Azimuth/Elevation."
  const BoxMessage: string := "Cube dimensions must be positive numbers."

  /** The page as loaded: the initial vector applied once, projections shown. */
  function Init(m: MathLib): (a: App)
    ensures a.lastVector == InitialVector && a.cube == InitialCube && a.showProjections
    ensures Displays(m, a)
  {
    App(InitialVector, InitialCube, true, ApplyVector(m, true, InitialVector, Readout(Blank, false)))
  }

  /** The scene is exactly the rendering of the last accepted vector. */
  predicate Displays(m: MathLib, a: App) {
    a.scene == ApplyVector(m, a.showProjections, a.lastVector, a.scene.readout)
  }

  /** `showError`: the message, in the warning colour. */
  function ShowError(msg: string): Readout {
    Readout(Message(msg), true)
  }

  /** `hideError`: back to the normal colour; the text is left as it is. */
  function HideError(r: Readout): Readout {
    r.(warning := false)
  }

  /** `showError(msg)` followed by `applyVector(lastVector)`: the rejected paths of
      the vector handlers. The re-render overwrites the message text with the
      kept vector's readout, so only the warning colour remains. */
  function KeepPrevious(m: MathLib, a: App, msg: string): (b: App)
    ensures b.lastVector == a.lastVector && b.cube == a.cube && b.showProjections == a.showProjections
    ensures b.scene.readout.warning
    ensures b.scene.readout.text.VectorInfo? && b.scene.readout.text.v == a.lastVector
    ensures Displays(m, b)
  {
    a.(scene := ApplyVector(m, a.showProjections, a.lastVector, ShowError(msg)))
  }

  /** The acceptance rule of `drawVectorTo`, stated on its own: three finite
      components and a length above 1e-9. */
  predicate AcceptsVector(x: Num, y: Num, z: Num) {
    x.Fin? && y.Fin? && z.Fin? && SquaredLength(Vec3(x.r, y.r, z.r)) > MinSquaredLength
  }

  /** `drawVectorTo(x, y, z)` */
  function DrawVectorTo(m: MathLib, a: App, x: Num, y: Num, z: Num): (b: App)
    ensures AcceptsVector(x, y, z) ==> b.lastVector == Vec3(x.r, y.r, z.r) && !b.scene.readout.warning
    ensures !AcceptsVector(x, y, z) ==> b.lastVector == a.lastVector && b.scene.readout.warning
    ensures b.cube == a.cube && b.showProjections == a.showProjections
    ensures Displays(m, b)
  {
    if !x.Fin? || !y.Fin? || !z.Fin? then
      KeepPrevious(m, a, NotFiniteMessage)
    else
      var v := Vec3(x.r, y.r, z.r);
      if !(SquaredLength(v) > MinSquaredLength) then
        KeepPrevious(m, a, TooShortMessage)
      else
        var r := HideError(a.scene.readout);
        a.(lastVector := v, scene := ApplyVector(m, a.showProjections, v, r))
  }

  /** Range, azimuth and elevation fields as `sphericalToCartesian` receives
      them: a negative range becomes 0, degrees become radians. */
  function AnglesToVector(m: MathLib, range: real, azimuthDeg: real, elevationDeg: real): (v: Vec3)
    ensures range <= 0.0 ==> v == Origin
  {
    var r := Max(0.0, range);
    var az := azimuthDeg * Pi / 180.0;
    var el := elevationDeg * Pi / 180.0;
    SphericalToCartesian(m, r, az, el)
  }

  /** The `#update-vector` button in either mode. */
  function UpdateVector(m: MathLib, a: App, mode: Mode, f1: Num, f2: Num, f3: Num): (b: App)
    ensures b.cube == a.cube && b.showProjections == a.showProjections
    ensures Displays(m, b)
    ensures !(Acceptable(f1) && Acceptable(f2) && Acceptable(f3)) ==>
              b.lastVector == a.lastVector && b.scene.readout.warning
    ensures mode == Cartesian && Acceptable(f1) && Acceptable(f2) && Acceptable(f3) ==>
              b == DrawVectorTo(m, a, f1, f2, f3)
    ensures mode == Angles && Acceptable(f1) && Acceptable(f2) && Acceptable(f3) ==>
              b == DrawVectorTo(m, a, Fin(AnglesToVector(m, f1.r, f2.r, f3.r).x),
                                       Fin(AnglesToVector(m, f1.r, f2.r, f3.r).y),
                                       Fin(AnglesToVector(m, f1.r, f2.r, f3.r).z))
    ensures mode == Angles && f1.Fin? && f1.r <= 0.0 ==> b.lastVector == a.lastVector && b.scene.readout.warning
  {
    match mode
    case Cartesian =>
      var px, py, pz := SafeNumber(f1, 0.0), SafeNumber(f2, 0.0), SafeNumber(f3, 0.0);
      if !px.ok || !py.ok || !pz.ok then KeepPrevious(m, a, CartesianFieldsMessage)
      else DrawVectorTo(m, a, Fin(px.value), Fin(py.value), Fin(pz.value))
    case Angles =>
      var pr, paz, pel := SafeNumber(f1, 0.0), SafeNumber(f2, 0.0), SafeNumber(f3, 0.0);
      if !pr.ok || !paz.ok || !pel.ok then KeepPrevious(m, a, AngleFieldsMessage)
      else
        var c := AnglesToVector(m, pr.value, paz.value, pel.value);
        DrawVectorTo(m, a, Fin(c.x), Fin(c.y), Fin(c.z))
  }

  /** The `#clear-vector` button: everything the vector drew is hidden; the
      vector itself is kept and comes back on the next re-render. */
  function ClearVector(a: App): (b: App)
    ensures b.lastVector == a.lastVector && b.cube == a.cube && b.showProjections == a.showProjections
    ensures b.scene.arrow.None? && b.scene.projections.None? && b.scene.arcs.None?
    ensures b.scene.readout.text.Blank?
  {
    a.(scene := ClearScene(a.scene))
  }

  /** The `#show-projections` checkbox: record the choice and redraw the kept
      vector with the three projections shown or hidden. */
  function ToggleProjections(m: MathLib, a: App, checked: bool): (b: App)
    ensures b.lastVector == a.lastVector && b.cube == a.cube
    ensures b.showProjections == checked
    ensures b.scene.readout.warning == a.scene.readout.warning
    ensures Displays(m, b)
    ensures !checked ==> b.scene.projections.None?
    ensures checked ==> b.scene.projections == Some(Projections(
      Vec3(a.lastVector.x, a.lastVector.y, 0.0),
      Vec3(a.lastVector.x, 0.0, a.lastVector.z),
      Vec3(0.0, a.lastVector.y, a.lastVector.z)))
  {
    a.(showProjections := checked, scene := ApplyVector(m, checked, a.lastVector, a.scene.readout))
  }

  /** A change of one of the `#label-x/y/z` fields: the axis label sprite is
      redrawn (not modelled) and the kept vector re-applied. */
  function RelabelAxis(m: MathLib, a: App): (b: App)
    ensures b.lastVector == a.lastVector && b.cube == a.cube && b.showProjections == a.showProjections
    ensures b.scene.readout.warning == a.scene.readout.warning
    ensures Displays(m, b)
  {
    a.(scene := ApplyVector(m, a.showProjections, a.lastVector, a.scene.readout))
  }

  /** The acceptance rule of the `#apply-box` button, stated on its own: each
      field passes `safeNumber` and is strictly positive. */
  predicate AcceptsBox(w: Num, h: Num, d: Num) {
    && Acceptable(w) && w.r > 0.0
    && Acceptable(h) && h.r > 0.0
    && Acceptable(d) && d.r > 0.0
  }

  /** The `#apply-box` button. */
  function ApplyBox(a: App, w: Num, h: Num, d: Num): (b: App)
    ensures b.lastVector == a.lastVector && b.showProjections == a.showProjections
    ensures !AcceptsBox(w, h, d) ==> b.cube == a.cube && b.scene.readout == ShowError(BoxMessage)
    ensures AcceptsBox(w, h, d) ==>
              && MinDimension <= b.cube.width && MinDimension <= b.cube.height && MinDimension <= b.cube.depth
              && (w.r >= MinDimension ==> b.cube.width == w.r)
              && (h.r >= MinDimension ==> b.cube.height == h.r)
              && (d.r >= MinDimension ==> b.cube.depth == d.r)
              && (w.r < MinDimension ==> b.cube.width == MinDimension)
              && (h.r < MinDimension ==> b.cube.height == MinDimension)
              && (d.r < MinDimension ==> b.cube.depth == MinDimension)
              && b.scene.readout == a.scene.readout.(warning := false)
    ensures AcceptsBox(w, h, d) ==> b.scene.arrow == a.scene.arrow && b.scene.projections == a.scene.projections
    ensures b.scene.(readout := a.scene.readout) == a.scene
  {
    var pw := SafeNumber(w, DefaultDimension);
    var ph := SafeNumber(h, DefaultDimension);
    var pd := SafeNumber(d, DefaultDimension);
    if !pw.ok || !ph.ok || !pd.ok || pw.value <= 0.0 || ph.value <= 0.0 || pd.value <= 0.0 then
      a.(scene := a.scene.(readout := ShowError(BoxMessage)))
    else
      var cube := Dims(Max(MinDimension, pw.value), Max(MinDimension, ph.value), Max(MinDimension, pd.value));
      a.(cube := cube, scene := a.scene.(readout := HideError(a.scene.readout)))
  }
}

=== FILE: vector_app_properties.dfy ===
/** Properties of the application state over whole sequences of UI events:
    the kept vector is always drawable and the cube always at least 0.01 on a
    side, only an accepted vector or box ever changes them, and the scene
    never shows anything but the kept vector.
 */
module VectorAppProperties {
  import opened Numbers
  import opened SafeInput
  import opened VectorScene
  import opened VectorApp

  /** The UI actions main.js listens to (the mode radio buttons only change
      which field set is visible; the mode travels with the button press). */
  datatype UiEvent =
    | UpdateVectorClicked(mode: Mode, f1: Num, f2: Num, f3: Num)
    | ClearVectorClicked
    | ProjectionsToggled(checked: bool)
    | AxisLabelChanged
    | ApplyBoxClicked(w: Num, h: Num, d: Num)

  function Step(m: MathLib, a: App, e: UiEvent): App {
    match e
    case UpdateVectorClicked(mode, f1, f2, f3) => UpdateVector(m, a, mode, f1, f2, f3)
    case ClearVectorClicked => ClearVector(a)
    case ProjectionsToggled(checked) => ToggleProjections(m, a, checked)
    case AxisLabelChanged => RelabelAxis(m, a)
    case ApplyBoxClicked(w, h, d) => ApplyBox(a, w, h, d)
  }

  function Run(m: MathLib, a: App, es: seq<UiEvent>): App
    decreases |es|
  {
    if |es| == 0 then a else Run(m, Step(m, a, es[0]), es[1..])
  }

  /** The vector a vector-update event proposes, when all three of its fields
      pass validation. */
  function Proposal(m: MathLib, e: UiEvent): Option<Vec3> {
    if e.UpdateVectorClicked? && Acceptable(e.f1) && Acceptable(e.f2) && Acceptable(e.f3) then
      if e.mode == Cartesian then Some(Vec3(e.f1.r, e.f2.r, e.f3.r))
      else Some(AnglesToVector(m, e.f1.r, e.f2.r, e.f3.r))
    else None
  }

  /** An event that replaces the kept vector: a valid proposal longer than 1e-9. */
  predicate VectorAccepted(m: MathLib, e: UiEvent) {
    Proposal(m, e).Some? && SquaredLength(Proposal(m, e).value) > MinSquaredLength
  }

  /** An event that replaces the cube. */
  predicate BoxAccepted(e: UiEvent) {
    e.ApplyBoxClicked? && AcceptsBox(e.w, e.h, e.d)
  }

  /** The vector is drawable and every cube side is at least 0.01. */
  predicate Valid(a: App) {
    && SquaredLength(a.lastVector) > MinSquaredLength
    && a.cube.width >= MinDimension && a.cube.height >= MinDimension && a.cube.depth >= MinDimension
  }

  /** Arrow, projections and arcs are those of the kept vector. */
  predicate DrawnFor(m: MathLib, a: App) {
    && a.scene.arrow == Some(ArrowFor(m, a.lastVector))
    && a.scene.projections == UpdateProjections(a.showProjections, a.lastVector)
    && a.scene.arcs == Some(ArcsFor(m, a.lastVector))
  }

  /** Nothing of the vector is visible (after the clear button). */
  predicate Cleared(a: App) {
    a.scene.arrow.None? && a.scene.projections.None? && a.scene.arcs.None?
  }

  predicate Inv(m: MathLib, a: App) {
    Valid(a) && (DrawnFor(m, a) || Cleared(a))
  }

  lemma InitInv(m: MathLib)
    ensures Inv(m, Init(m))
  {
  }

  /** One event changes the kept vector exactly when it is an accepted
      proposal, and then to that proposal. */
  lemma StepVectorRule(m: MathLib, a: App, e: UiEvent)
    ensures Step(m, a, e).lastVector == (if VectorAccepted(m, e) then Proposal(m, e).value else a.lastVector)
  {
    if e.UpdateVectorClicked? && Acceptable(e.f1) && Acceptable(e.f2) && Acceptable(e.f3) && e.mode == Angles {
      var v := AnglesToVector(m, e.f1.r, e.f2.r, e.f3.r);
      assert Step(m, a, e) == DrawVectorTo(m, a, Fin(v.x), Fin(v.y), Fin(v.z));
    }
  }

  /** One event changes the cube exactly when it is an accepted box, and then
      to the box's sides floored at 0.01. */
  lemma StepCubeRule(m: MathLib, a: App, e: UiEvent)
    ensures Step(m, a, e).cube ==
      (if BoxAccepted(e) then Dims(Max(MinDimension, e.w.r), Max(MinDimension, e.h.r), Max(MinDimension, e.d.r))
       else a.cube)
  {
  }

  lemma StepInv(m: MathLib, a: App, e: UiEvent)
    requires Inv(m, a)
    ensures Inv(m, Step(m, a, e))
  {
    StepVectorRule(m, a, e);
    StepCubeRule(m, a, e);
  }

  /** Whatever the user does, the kept vector stays drawable, the cube stays
      at least 0.01 on a side, and the scene shows the kept vector or nothing. */
  lemma {:induction false} RunInv(m: MathLib, a: App, es: seq<UiEvent>)
    requires Inv(m, a)
    ensures Inv(m, Run(m, a, es))
    decreases |es|
  {
    if |es| > 0 {
      StepInv(m, a, es[0]);
      RunInv(m, Step(m, a, es[0]), es[1..]);
    }
  }

  /** Invalid input never changes the state: a run in which no vector is
      accepted keeps the vector, and one in which no box is accepted keeps
      the cube. */
  lemma {:induction false} RunRejectAndRetain(m: MathLib, a: App, es: seq<UiEvent>)
    ensures (forall i :: 0 <= i < |es| ==> !VectorAccepted(m, es[i])) ==> Run(m, a, es).lastVector == a.lastVector
    ensures (forall i :: 0 <= i < |es| ==> !BoxAccepted(es[i])) ==> Run(m, a, es).cube == a.cube
    decreases |es|
  {
    if |es| > 0 {
      StepVectorRule(m, a, es[0]);
      StepCubeRule(m, a, es[0]);
      RunRejectAndRetain(m, Step(m, a, es[0]), es[1..]);
      assert forall i :: 0 <= i < |es[1..]| ==> es[1..][i] == es[i + 1];
    }
  }

  /** A run ending in an accepted vector leaves exactly that vector. */
  lemma RunEndsWithAccepted(m: MathLib, a: App, es: seq<UiEvent>, e: UiEvent)
    requires VectorAccepted(m, e)
    ensures Run(m, a, es + [e]).lastVector == Proposal(m, e).value
  {
    RunSnoc(m, a, es, e);
    StepVectorRule(m, Run(m, a, es), e);
  }

  lemma {:induction false} RunSnoc(m: MathLib, a: App, es: seq<UiEvent>, e: UiEvent)
    ensures Run(m, a, es + [e]) == Step(m, Run(m, a, es), e)
    decreases |es|
  {
    if |es| == 0 {
      assert es + [e] == [e];
    } else {
      assert (es + [e])[1..] == es[1..] + [e];
      RunSnoc(m, Step(m, a, es[0]), es[1..], e);
    }
  }

  /** For a non-negative r: r² > 1e-18 exactly when r > 1e-9. */
  lemma SquareAboveThreshold(r: real)
    requires 0.0 <= r
    ensures r * r > MinSquaredLength <==> r > 0.000000001
  {
    var t := 0.000000001;
    assert t * t == MinSquaredLength;
    if r > t {
      assert r * r > t * r;
      assert t * r >= t * t;
    } else {
      assert r * r <= t * r;
      assert t * r <= t * t;
    }
  }

  /** Where sin² + cos² = 1 at both angles, the vector built from the angle
      fields is longer than 1e-9 exactly when the range field is. */
  lemma AnglesVectorLongEnoughIff(m: MathLib, range: real, azimuthDeg: real, elevationDeg: real)
    requires TrigIdentityAt(m, azimuthDeg * Pi / 180.0) && TrigIdentityAt(m, elevationDeg * Pi / 180.0)
    ensures SquaredLength(AnglesToVector(m, range, azimuthDeg, elevationDeg)) > MinSquaredLength
        <==> range > 0.000000001
  {
    var r := Max(0.0, range);
    SphericalToCartesianLength(m, r, azimuthDeg * Pi / 180.0, elevationDeg * Pi / 180.0);
    SquareAboveThreshold(r);
  }

  /** In angle mode with valid fields, and where sin² + cos² = 1 at both
      angles, the vector is accepted exactly when the range exceeds 1e-9; a
      zero or negative range is clamped to 0 and always rejected. */
  lemma AnglesAcceptedIff(m: MathLib, a: App, f1: Num, f2: Num, f3: Num)
    requires Acceptable(f1) && Acceptable(f2) && Acceptable(f3)
    requires TrigIdentityAt(m, f2.r * Pi / 180.0) && TrigIdentityAt(m, f3.r * Pi / 180.0)
    ensures VectorAccepted(m, UpdateVectorClicked(Angles, f1, f2, f3)) <==> f1.r > 0.000000001
    ensures f1.r > 0.000000001 ==>
      UpdateVector(m, a, Angles, f1, f2, f3).lastVector == AnglesToVector(m, f1.r, f2.r, f3.r)
    ensures f1.r <= 0.000000001 ==> UpdateVector(m, a, Angles, f1, f2, f3).lastVector == a.lastVector
  {
    var e := UpdateVectorClicked(Angles, f1, f2, f3);
    AnglesVectorLongEnoughIff(m, f1.r, f2.r, f3.r);
    assert Proposal(m, e) == Some(AnglesToVector(m, f1.r, f2.r, f3.r));
    StepVectorRule(m, a, e);
    assert Step(m, a, e) == UpdateVector(m, a, Angles, f1, f2, f3);
  }

  /** Turning projections off and back on with the vector (1, 1, 1) hides the
      three segments and then shows them at (1, 1, 0), (1, 0, 1) and (0, 1, 1). */
  lemma ToggleProjectionsOffOn(m: MathLib, a: App)
    requires a.lastVector == Vec3(1.0, 1.0, 1.0)
    ensures ToggleProjections(m, a, false).scene.projections.None?
    ensures ToggleProjections(m, ToggleProjections(m, a, false), true).scene.projections
         == Some(Projections(Vec3(1.0, 1.0, 0.0), Vec3(1.0, 0.0, 1.0), Vec3(0.0, 1.0, 1.0)))
  {
  }

  /** Clearing and then toggling projections brings the kept vector back. */
  lemma ClearThenToggleRedraws(m: MathLib, a: App, checked: bool)
    ensures var b := ToggleProjections(m, ClearVector(a), checked);
      b.lastVector == a.lastVector && DrawnFor(m, b)
  {
  }
}

=== FILE: vector_scene.dfy ===
/** What `applyVector` in public/main.js derives from a vector: the arrow with its
    clamped head, the three plane projections, the azimuth and elevation arcs
    (their sampled parameters and points), and the numeric readout. Meshes,
    materials and label sprites are not modelled; a scene is the list of what
    is visible and where.
 */
module VectorScene {
  import opened Numbers

  /** Length of the axis arrows; the arc radius is capped at 90% of it. */
  const ArrowLen: real := 3.5

  /** Segment count `applyVector` passes to both arc builders. */
  const ArcSegments: nat := 96

  /* ---------- the vector arrow ---------- */

  datatype Arrow = Arrow(tip: Vec3, length: real, head: real, headWidth: real)

  /** Head length of the vector arrow for a vector of length `len`:
      a fifth of the length, kept between 0.2 and 0.6. */
  function HeadLength(len: real): (head: real)
    ensures 0.2 <= head <= 0.6
    ensures 1.0 <= len <= 3.0 ==> head == 0.2 * len
    ensures len <= 1.0 ==> head == 0.2
    ensures 3.0 <= len ==> head == 0.6
  {
    Min(0.6, Max(0.2, 0.2 * len))
  }

  function ArrowFor(m: MathLib, v: Vec3): (a: Arrow)
    ensures a.tip == v
    ensures a.head == HeadLength(a.length)
    ensures a.headWidth == 0.7 * a.head
  {
    var len := Hypot3(m, v);
    var head := HeadLength(len);
    Arrow(v, len, head, head * 0.7)
  }

  /* ---------- plane projections ---------- */

  /** End points of the three segments drawn from the origin: the feet of the
      vector on the planes z = 0, y = 0 and x = 0. */
  datatype Projections = Projections(xy: Vec3, xz: Vec3, yz: Vec3)

  /** `updateProjections`: the three feet when projections are shown, nothing
      visible (`clearProjectionsOnly`) when they are not. */
  function UpdateProjections(show: bool, v: Vec3): (p: Option<Projections>)
    ensures p.Some? <==> show
    ensures p.Some? ==> p.value.xy.z == 0.0 && Add(p.value.xy, Vec3(0.0, 0.0, v.z)) == v
    ensures p.Some? ==> p.value.xz.y == 0.0 && Add(p.value.xz, Vec3(0.0, v.y, 0.0)) == v
    ensures p.Some? ==> p.value.yz.x == 0.0 && Add(p.value.yz, Vec3(v.x, 0.0, 0.0)) == v
  {
    if !show then None
    else Some(Projections(Vec3(v.x, v.y, 0.0), Vec3(v.x, 0.0, v.z), Vec3(0.0, v.y, v.z)))
  }

  /* ---------- spherical helpers ---------- */

  /** Range, azimuth (from +X toward +Z in the horizontal plane) and elevation
      (above the horizontal plane). */
  datatype Polar = Polar(range: real, azimuth: real, elevation: real)

  /** `cartesianToSpherical` */
  function CartesianToSpherical(m: MathLib, v: Vec3): Polar {
    Polar(Hypot3(m, v), m.atan2(v.z, v.x), m.atan2(v.y, Hypot2(m, v.x, v.z)))
  }

  /** Where `Math.sqrt` is exact at x² + y² + z², the range `cartesianToSpherical`
      reports and the length of the vector's arrow are both the vector's length. */
  lemma RangeIsLength(m: MathLib, v: Vec3)
    requires SqrtAt(m, SquaredLength(v))
    ensures CartesianToSpherical(m, v).range >= 0.0
    ensures CartesianToSpherical(m, v).range * CartesianToSpherical(m, v).range == SquaredLength(v)
    ensures ArrowFor(m, v).length == CartesianToSpherical(m, v).range
  {
  }

  /** `sphericalToCartesian` */
  function SphericalToCartesian(m: MathLib, range: real, azimuth: real, elevation: real): (v: Vec3)
    ensures range == 0.0 ==> v == Origin
    ensures v.x * m.sin(azimuth) == v.z * m.cos(azimuth)
  {
    Vec3(range * m.cos(elevation) * m.cos(azimuth),
         range * m.sin(elevation),
         range * m.cos(elevation) * m.sin(azimuth))
  }

  /** Where sin² + cos² = 1 holds at both angles, the Cartesian point lies at
      distance |range| from the origin. */
  lemma SphericalToCartesianLength(m: MathLib, range: real, azimuth: real, elevation: real)
    requires TrigIdentityAt(m, azimuth) && TrigIdentityAt(m, elevation)
    ensures SquaredLength(SphericalToCartesian(m, range, azimuth, elevation)) == range * range
  {
    var ca, sa := m.cos(azimuth), m.sin(azimuth);
    var ce, se := m.cos(elevation), m.sin(elevation);
    var v := SphericalToCartesian(m, range, azimuth, elevation);
    calc {
      SquaredLength(v);
      (range * ce * ca) * (range * ce * ca) + (range * se) * (range * se) + (range * ce * sa) * (range * ce * sa);
      { assert (range * ce * ca) * (range * ce * ca) + (range * ce * sa) * (range * ce * sa)
            == (range * range) * (ce * ce) * (sa * sa + ca * ca); }
      (range * range) * (ce * ce) * (sa * sa + ca * ca) + (range * range) * (se * se);
      (range * range) * (ce * ce) + (range * range) * (se * se);
      (range * range) * (se * se + ce * ce);
      range * range;
    }
  }

  /* ---------- angle arcs ---------- */

  /** Arc radius for a vector of range `r`: 60% of the range, kept between
      0.6 and 90% of the axis arrow length. */
  function ArcRadius(r: real): (radius: real)
    ensures 0.6 <= radius <= ArrowLen * 0.9
    ensures 1.0 <= r <= 5.25 ==> radius == 0.6 * r
    ensures r <= 1.0 ==> radius == 0.6
    ensures 5.25 <= r ==> radius == ArrowLen * 0.9
  {
    Min(ArrowLen * 0.9, Max(0.6, r * 0.6))
  }

  /** The angle parameters both arc builders sample: `segments + 1` values
      `0 + step * i` with `step = end / segments`. */
  function ArcParams(end: real, segments: nat): (ts: seq<real>)
    requires segments > 0
    ensures |ts| == segments + 1
    ensures ts[0] == 0.0
    ensures ts[segments] == end
    ensures forall i :: 0 <= i < segments ==> ts[i + 1] - ts[i] == end / segments as real
  {
    var step := (end - 0.0) / segments as real;
    seq(segments + 1, i requires 0 <= i <= segments => 0.0 + step * i as real)
  }

  /** Every sampled parameter lies in the swept interval between 0 and `end`. */
  lemma ArcParamsWithinSweep(end: real, segments: nat, i: nat)
    requires segments > 0 && i <= segments
    ensures Min(0.0, end) <= ArcParams(end, segments)[i] <= Max(0.0, end)
  {
    var step := end / segments as real;
    var t := ArcParams(end, segments)[i];
    assert t == step * i as real;
    assert step * segments as real == end;
    var k := (segments - i) as real;
    assert step * segments as real - step * i as real == step * k;
    if end >= 0.0 {
      assert step >= 0.0;
      assert step * i as real >= 0.0 && step * k >= 0.0;
    } else {
      assert step < 0.0;
      assert step * i as real <= 0.0 && step * k <= 0.0;
    }
  }

  /** Point of the azimuth arc at angle `t`: on the circle of radius `radius`
      in the horizontal (XZ) plane. */
  function AzimuthPoint(m: MathLib, radius: real, t: real): (p: Vec3)
    ensures p.y == 0.0
    ensures TrigIdentityAt(m, t) ==> SquaredLength(p) == radius * radius
  {
    Vec3(m.cos(t) * radius, 0.0, m.sin(t) * radius)
  }

  /** Point of the elevation arc at angle `t`: `(b̂ cos t + ŷ sin t) * radius`
      with b̂ the horizontal bearing at `azimuth`. */
  function ElevationPoint(m: MathLib, azimuth: real, radius: real, t: real): Vec3 {
    Vec3(m.cos(azimuth) * m.cos(t) * radius,
         m.sin(t) * radius,
         m.sin(azimuth) * m.cos(t) * radius)
  }

  /** Where sin² + cos² = 1 at the azimuth and at `t`, an elevation-arc point
      lies on the sphere of radius `radius`. */
  lemma ElevationPointOnSphere(m: MathLib, azimuth: real, radius: real, t: real)
    requires TrigIdentityAt(m, azimuth) && TrigIdentityAt(m, t)
    ensures SquaredLength(ElevationPoint(m, azimuth, radius, t)) == radius * radius
  {
    var ca, sa := m.cos(azimuth), m.sin(azimuth);
    var ct, st := m.cos(t), m.sin(t);
    calc {
      SquaredLength(ElevationPoint(m, azimuth, radius, t));
      (ca * ct * radius) * (ca * ct * radius) + (st * radius) * (st * radius) + (sa * ct * radius) * (sa * ct * radius);
      { assert (ca * ct * radius) * (ca * ct * radius) + (sa * ct * radius) * (sa * ct * radius)
            == (radius * radius) * (ct * ct) * (sa * sa + ca * ca); }
      (radius * radius) * (ct * ct) + (radius * radius) * (st * st);
      (radius * radius) * (st * st + ct * ct);
    }
  }

  /** The elevation arc stays in the vertical plane through the bearing:
      x sin(az) = z cos(az) for every point. */
  lemma ElevationPointInPlane(m: MathLib, azimuth: real, radius: real, t: real)
    ensures ElevationPoint(m, azimuth, radius, t).x * m.sin(azimuth)
         == ElevationPoint(m, azimuth, radius, t).z * m.cos(azimuth)
  {
    var c, s, ct := m.cos(azimuth), m.sin(azimuth), m.cos(t);
    var p := ElevationPoint(m, azimuth, radius, t);
    assert p.x == c * ct * radius;
    assert p.z == s * ct * radius;
    assert (c * ct * radius) * s == (s * ct * radius) * c;
  }

  function AzimuthArc(m: MathLib, azimuth: real, radius: real, segments: nat): (pts: seq<Vec3>)
    requires segments > 0
    ensures |pts| == segments + 1
    ensures forall i :: 0 <= i < |pts| ==> pts[i].y == 0.0
    ensures pts[0] == AzimuthPoint(m, radius, 0.0) && pts[segments] == AzimuthPoint(m, radius, azimuth)
  {
    var ts := ArcParams(azimuth, segments);
    seq(segments + 1, i requires 0 <= i <= segments => AzimuthPoint(m, radius, ts[i]))
  }

  function ElevationArc(m: MathLib, azimuth: real, elevation: real, radius: real, segments: nat): (pts: seq<Vec3>)
    requires segments > 0
    ensures |pts| == segments + 1
    ensures pts[0] == ElevationPoint(m, azimuth, radius, 0.0) && pts[segments] == ElevationPoint(m, azimuth, radius, elevation)
  {
    var ts := ArcParams(elevation, segments);
    seq(segments + 1, i requires 0 <= i <= segments => ElevationPoint(m, azimuth, radius, ts[i]))
  }

  /** `buildAzimuthArcGeometry`: the loop of main.js, producing the arc
      point by point. Every point lies in the horizontal plane. */
  method BuildAzimuthArcGeometry(m: MathLib, azimuth: real, radius: real, segments: nat)
    returns (pts: seq<Vec3>)
    requires segments > 0
    ensures pts == AzimuthArc(m, azimuth, radius, segments)
    ensures |pts| == segments + 1
    ensures forall i :: 0 <= i < |pts| ==> pts[i].y == 0.0
    ensures pts[0] == AzimuthPoint(m, radius, 0.0)
    ensures pts[segments] == AzimuthPoint(m, radius, azimuth)
  {
    pts := [];
    var start := 0.0;
    var end := azimuth;
    var step := (end - start) / segments as real;
    var i := 0;
    while i <= segments
      invariant 0 <= i <= segments + 1
      invariant |pts| == i
      invariant forall j :: 0 <= j < i ==> pts[j] == AzimuthPoint(m, radius, ArcParams(azimuth, segments)[j])
    {
      var t := start + step * i as real;
      assert t == ArcParams(azimuth, segments)[i];
      pts := pts + [AzimuthPoint(m, radius, t)];
      i := i + 1;
    }
  }

  /** `buildElevationArcGeometry`: every point lies in the vertical plane that
      contains the bearing b̂ = (cos az, 0, sin az) and the +Y axis. */
  method BuildElevationArcGeometry(m: MathLib, azimuth: real, elevation: real, radius: real, segments: nat)
    returns (pts: seq<Vec3>)
    requires segments > 0
    ensures pts == ElevationArc(m, azimuth, elevation, radius, segments)
    ensures |pts| == segments + 1
    ensures forall i :: 0 <= i < |pts| ==> pts[i].x * m.sin(azimuth) == pts[i].z * m.cos(azimuth)
    ensures pts[0] == ElevationPoint(m, azimuth, radius, 0.0)
    ensures pts[segments] == ElevationPoint(m, azimuth, radius, elevation)
  {
    pts := [];
    var start := 0.0;
    var end := elevation;
    var step := (end - start) / segments as real;
    var i := 0;
    while i <= segments
      invariant 0 <= i <= segments + 1
      invariant |pts| == i
      invariant forall j :: 0 <= j < i ==> pts[j] == ElevationPoint(m, azimuth, radius, ArcParams(elevation, segments)[j])
    {
      var t := start + step * i as real;
      assert t == ArcParams(elevation, segments)[i];
      pts := pts + [ElevationPoint(m, azimuth, radius, t)];
      i := i + 1;
    }
    assert pts == ElevationArc(m, azimuth, elevation, radius, segments);
    ElevationArcInPlane(m, azimuth, elevation, radius, segments);
  }

  /** Every point of an elevation arc lies in the bearing's vertical plane. */
  lemma ElevationArcInPlane(m: MathLib, azimuth: real, elevation: real, radius: real, segments: nat)
    requires segments > 0
    ensures var pts := ElevationArc(m, azimuth, elevation, radius, segments);
      forall i :: 0 <= i < |pts| ==> pts[i].x * m.sin(azimuth) == pts[i].z * m.cos(azimuth)
  {
    var pts := ElevationArc(m, azimuth, elevation, radius, segments);
    forall i | 0 <= i < |pts|
      ensures pts[i].x * m.sin(azimuth) == pts[i].z * m.cos(azimuth)
    {
      ElevationPointInPlane(m, azimuth, radius, ArcParams(elevation, segments)[i]);
    }
  }

  /* ---------- readout and scene ---------- */

  /** Text of the `#vector-readout` element. Number formatting is not modelled. */
  datatype ReadoutText =
    | Blank
    | VectorInfo(v: Vec3, azimuth: real, elevation: real, range: real)
    | Message(text: string)

  /** The readout's text and whether it is in the warning colour. */
  datatype Readout = Readout(text: ReadoutText, warning: bool)

  datatype Arcs = Arcs(radius: real, angles: Polar, azimuthArc: seq<Vec3>, elevationArc: seq<Vec3>)

  /** What is visible: the vector arrow (with its tip marker), the projections,
      the two arcs (with their angle labels), and the readout. */
  datatype Scene = Scene(arrow: Option<Arrow>, projections: Option<Projections>, arcs: Option<Arcs>, readout: Readout)

  function ArcsFor(m: MathLib, v: Vec3): (a: Arcs)
    ensures 0.6 <= a.radius <= ArrowLen * 0.9
    ensures a.angles == CartesianToSpherical(m, v)
    ensures a.radius == ArcRadius(a.angles.range)
    ensures |a.azimuthArc| == ArcSegments + 1 && |a.elevationArc| == ArcSegments + 1
    ensures forall i :: 0 <= i < |a.azimuthArc| ==> a.azimuthArc[i].y == 0.0
    ensures a.azimuthArc[0] == AzimuthPoint(m, a.radius, 0.0)
    ensures a.azimuthArc[ArcSegments] == AzimuthPoint(m, a.radius, a.angles.azimuth)
    ensures a.elevationArc[0] == ElevationPoint(m, a.angles.azimuth, a.radius, 0.0)
    ensures a.elevationArc[ArcSegments] == ElevationPoint(m, a.angles.azimuth, a.radius, a.angles.elevation)
    ensures forall i :: 0 <= i < |a.elevationArc| ==>
      a.elevationArc[i].x * m.sin(a.angles.azimuth) == a.elevationArc[i].z * m.cos(a.angles.azimuth)
  {
    var p := CartesianToSpherical(m, v);
    var radius := ArcRadius(p.range);
    ElevationArcInPlane(m, p.azimuth, p.elevation, radius, ArcSegments);
    Arcs(radius, p, AzimuthArc(m, p.azimuth, radius, ArcSegments), ElevationArc(m, p.azimuth, p.elevation, radius, ArcSegments))
  }

  /** `applyVector(x, y, z)`: rebuild everything that depends on the vector.
      It rewrites the readout's text but not its colour. */
  function ApplyVector(m: MathLib, showProjections: bool, v: Vec3, readout: Readout): (s: Scene)
    ensures s.arrow.Some? && s.arrow.value.tip == v
    ensures s.arrow.value.head == HeadLength(s.arrow.value.length)
    ensures 0.2 <= s.arrow.value.head <= 0.6 && s.arrow.value.headWidth == 0.7 * s.arrow.value.head
    ensures s.projections.Some? <==> showProjections
    ensures s.projections.Some? ==> s.projections.value == Projections(Vec3(v.x, v.y, 0.0), Vec3(v.x, 0.0, v.z), Vec3(0.0, v.y, v.z))
    ensures s.arcs.Some? && 0.6 <= s.arcs.value.radius <= ArrowLen * 0.9
    ensures s.arcs.value.angles == CartesianToSpherical(m, v)
    ensures s.arcs.value.radius == ArcRadius(s.arcs.value.angles.range)
    ensures s.arcs == Some(ArcsFor(m, v))
    ensures s.readout.warning == readout.warning
    ensures s.readout.text.VectorInfo? && s.readout.text.v == v
  {
    var p := CartesianToSpherical(m, v);
    Scene(Some(ArrowFor(m, v)), UpdateProjections(showProjections, v), Some(ArcsFor(m, v)),
          Readout(VectorInfo(v, p.azimuth, p.elevation, p.range), readout.warning))
  }

  /** The `#clear-vector` button: hide the arrow, projections, arcs and labels
      and blank the readout text, leaving its colour. */
  function ClearScene(s: Scene): (c: Scene)
    ensures c.arrow.None? && c.projections.None? && c.arcs.None?
    ensures c.readout.text.Blank? && c.readout.warning == s.readout.warning
  {
    Scene(None, None, None, s.readout.(text := Blank))
  }
}
